=== FILE: README.md ===
# Check scheduling in the sensu-go backend

This project models the check scheduler of the sensu-go backend
(`backend/checker.go`) in Dafny and proves properties of the model.

- **`MessageScheduler`.** Each check has its own timer. The first tick is
  delayed by a *splay*, which is read from the MD5 digest of the check name
  as an unsigned varint. On each tick the timer publishes the check's
  serialised event to every subscription topic.
- **`Checker`.** It bootstraps one scheduler per check from a store
  snapshot. It then applies the PUT and DELETE events of a watch on the
  checks prefix to its `schedulers` map.

The files, by module:

- `goints.dfy` (`GoInts`): Go's `uint64`, `int64` and `byte`, with
  two's-complement wrapping written out.
- `varint.dfy` (`Varint`): `binary.Uvarint`, the decoder the splay uses. It
  is paired with `binary.PutUvarint` as its inverse.
- `splay.dfy` (`Splay`): the delay before the first tick, in wrapping
  `uint64` arithmetic, and the Go durations the timer is armed with.
- `scheduler.dfy` (`Scheduler`): `Start`, `Stop`, one tick and
  `newSchedulerFromCheck`.
- `gostrings.dfy` (`GoStrings`): `strings.Split` on `/`, with `strings.Join`
  as its partner, and the last path segment that a DELETE key names.
- `backend.dfy` (`Backend`): the checker as written.
  - The bootstrap of `Checker.Start`.
  - The PUT and DELETE branches of the watcher goroutine, as pure steps over
    an explicit state. The state holds:
    - `registry`: the map;
    - `heap`: every scheduler ever allocated, identified by allocation
      number;
    - `running`: the schedulers whose loop is live.
  - A Go panic ends the loop with the outcome `Panicked` (`Crashed` during
    the bootstrap). Nothing recovers it, so in the running backend it ends
    the whole process, not only the goroutine that panicked. The panics are
    closing a closed channel, calling `Start` on a nil scheduler, and a
    started timer loop dividing by a zero tick modulus.
- `reconcile.dfy` (`Reconcile`): the checker as the scheduler's purpose
  requires it.
  - The start checks the whole snapshot before it starts anything. A failed
    start leaves nothing running, and a repeated name replaces its earlier
    timer.
  - An upsert cancels the old timer and installs the new one.
  - A delete cancels the timer as it removes the entry.
  - A check that cannot be scheduled is left unscheduled: its event does
    not serialise, or its interval gives a zero tick modulus.
  - It is proved to keep exactly one running timer per registered name, and
    no running timer's loop divides by zero. The registry follows the latest
    definitions that decode and can be scheduled, keyed by check name.

The splay arithmetic keeps the source's units:

- the clock is read in nanoseconds;
- the modulus is the interval in milliseconds;
- the result is used as milliseconds.

`Splay.FirstDelay` keeps this arithmetic exactly. `Splay.FirstTickPhase` is
a congruence about these numbers in their mixed units. It is not the phase of
the first tick, because the timer fires `delay * 10^6` nanoseconds after the
clock reading. `Splay.FirstTickDrifts` shows that the first tick's position
within the period moves with the clock: splay 0, interval 1 s and clock
readings of 1 ns and 2 ns give 615000001 ns and 614000002 ns into the period.

The comment on backend/checker.go:44 gives the formula with a further
division by 1000 at the end, which backend/checker.go:45 does not carry out. Neither the
comment nor the code fixes the splay's phase. `Splay.SplayDelay` is the
unit-matched delay: it reads the clock in milliseconds, so the first tick
lands on the splay's phase of the interval whatever the clock reads. The
scheduler model keeps the code's arithmetic; the corrected delay stands
beside it.

## Model

| member | source | states |
|---|---|---|
| Varint.Scan | backend/checker.go:37 | The decoder loop from byte `i`. A positive count lies within ten bytes and the buffer, and the value fits the bits read. At most one bit is taken from the tenth byte. A negative count is at least ten bytes. A zero or negative count gives value 0. |
| Varint.Uvarint | backend/checker.go:37 | The count never exceeds the buffer's length either way, and a positive count bounds the value by the bits read. Its byte-level behaviour is stated on `Scan` and its inverse by `UvarintPutUvarint`. |
| Varint.ScanStopsAtTerminal | backend/checker.go:37 | A positive count ends on the first byte without the continuation bit. Every byte before it has the bit. |
| Varint.ScanRunsOut | backend/checker.go:37 | The count is 0 exactly when the buffer has at most ten bytes and every one carries the continuation bit. |
| Varint.ScanOverflows | backend/checker.go:37-38 | A negative count (overflow) means every byte before the last one read carried the continuation bit. |
| Varint.UvarintPutUvarint | backend/checker.go:37 | Round trip: decoding the encoding of any `uint64`, whatever follows it, gives the value back with the encoding's length as the count. |
| Varint.SevenBytes | backend/checker.go:36-40 | Seven digest bytes never overflow. The value is below 2^49. The count is 0 exactly when all seven bytes continue, and then the value is 0. |
| Scheduler.SplayHash | backend/checker.go:36-37 | Decoding the first seven digest bytes never overflows, gives a value below 2^49, and gives count 0 exactly when all seven bytes carry the continuation bit. |
| Scheduler.Start | backend/checker.go:34-41 | `Start` opens a fresh stop channel and never returns the hashing error. The splay is below 2^49. It is 0 when all seven leading digest bytes continue. |
| Scheduler.Stop | backend/checker.go:66-70 | A nil channel is left alone and an open one is closed. Stopping a closed one panics (`None`), and only that panics. |
| Scheduler.StopLifecycle | backend/checker.go:66-70 | A never-started scheduler stops harmlessly. A started one stops once; stopping it a second time panics. |
| Scheduler.Tick | backend/checker.go:49-55 | One tick publishes the cached payload to every topic, in order, once each. Each publish error is recorded and the fan-out goes on. |
| Scheduler.NewSchedulerFromCheck | backend/checker.go:72-88 | Fails exactly when serialisation fails, with that error. Otherwise the hash key is the name, the topics are the subscriptions, the interval is copied, the payload is the serialised event, and the channel is nil. |
| Splay.TickModulus | backend/checker.go:45 | `uint64(Interval) * 1000` is the interval in milliseconds whenever that fits 64 bits. |
| Splay.FirstDelay | backend/checker.go:43-45 | The first delay is below the modulus. It is undefined (a division panic) exactly when the modulus is 0. |
| Splay.FirstTimerNanos | backend/checker.go:46 | The first timer in nanoseconds is the delay times 10^6 whenever that fits `int64`. See `FirstTickWithinPeriod` for the intervals where it does. |
| Splay.PeriodNanos | backend/checker.go:50 | The period is the interval times 10^9 nanoseconds whenever that fits `int64`. |
| Splay.FirstTickNanos | backend/checker.go:43-46 | The first tick's instant exists exactly when the tick modulus is not 0. What it is, is stated by `FirstTickDrifts` and `FirstTickWithinPeriod`. |
| Splay.FirstTickPhase | backend/checker.go:43-45 | In the code's mixed units, the clock reading in nanoseconds plus the delay in milliseconds is congruent, modulo the modulus, to the splay value. The splay is shifted by 2^64 when the `uint64` subtraction wrapped. This is not the phase of the first tick. |
| Splay.FirstTickDrifts | backend/checker.go:43-46 | With splay 0 and a one-second interval, clock readings of 1 ns and 2 ns give delays of 615 and 614 ms. The first ticks land 615000001 and 614000002 ns into the period, so the phase moves with the clock. |
| Splay.SplayDelay | backend/checker.go:43-46 | The unit-matched delay: below the modulus, undefined exactly when the modulus is 0. The first tick, in whole milliseconds, is congruent to the splay modulo the interval in milliseconds. |
| Splay.SplayDelayFixesPhase | backend/checker.go:43-46 | With the units matched, any two clock readings put the first tick on the same millisecond phase of the interval. |
| Splay.FirstTickWithinPeriod | backend/checker.go:45-50 | For intervals from 1 to 9223372036 seconds, no conversion wraps. The first timer is non-negative and shorter than the period. The period is the interval in nanoseconds. |
| Splay.ZeroModulus | backend/checker.go:45 | The modulus is 0 exactly for intervals that are multiples of 2^61 seconds, not only for 0. |
| Splay.ZeroModulusExamples | backend/checker.go:45 | Intervals 0 and 2^61 give a zero modulus; interval 1 gives 1000. |
| GoStrings.Split | backend/checker.go:163 | At least one piece, and no piece contains the separator. A single piece is the whole string, which happens exactly when the separator is absent. |
| GoStrings.JoinSplit | backend/checker.go:163 | Joining the pieces of a split gives the string back. |
| GoStrings.SplitJoin | backend/checker.go:163 | Splitting a join of separator-free pieces gives the pieces back. |
| GoStrings.LastSegment | backend/checker.go:163-164 | The name taken from a key has no `/`. |
| GoStrings.LastSegmentOfPath | backend/checker.go:163-164 | The last segment of `prefix/name` is `name`, for any prefix, when `name` has no slash. |
| GoStrings.CheckKeyName | backend/checker.go:163-164 | The key `/sensu.io/checks/cpu-check` yields the name `cpu-check`. |
| Backend.Spawn | backend/checker.go:124 | Starting a freshly built scheduler panics exactly when its tick modulus is 0, because its timer loop divides by it (backend/checker.go:45). Otherwise it allocates the next id, stores the scheduler with an open channel and adds it to the running set. The map is untouched. |
| Backend.FirstStepSpawns | backend/checker.go:124-125 | For a check whose tick modulus is not 0, one bootstrap step is `Spawn` followed by binding the check's name to the new scheduler. |
| Backend.StartChecker | backend/checker.go:104-117 | Guard order: no client, then no store, then a failed snapshot read. Each failure returns its error with nothing allocated. Success needs all three. |
| Backend.Populate | backend/checker.go:118-126 | No contract of its own; see `PopulateSucceeds`, `PopulateSpec`, `PopulateFailure` and `PopulateCrash`. |
| Backend.PopulateSucceeds | backend/checker.go:118-126 | The bootstrap loop succeeds exactly when every check of the snapshot can be scheduled: it serialises and its tick modulus is not 0. |
| Backend.PopulateFailure | backend/checker.go:119-123 | When the first check that cannot be scheduled fails to serialise, the loop returns its error. The schedulers started for the checks before it stay running. |
| Backend.PopulateCrash | backend/checker.go:119-125 | When the first check that cannot be scheduled serialises but has a zero tick modulus, its timer loop divides by zero and the bootstrap crashes, after the schedulers before it were started. |
| Backend.PopulateSpec | backend/checker.go:118-126 | After a successful loop, each name is bound to the scheduler of its last occurrence. One scheduler runs per snapshot entry, and earlier state is kept. |
| Backend.StartCheckerBootstrap | backend/checker.go:104-126 | Success iff every check can be scheduled. Then the map's keys are exactly the snapshot's names, each bound to the scheduler of its last occurrence, and one scheduler per entry runs. |
| Backend.BootstrapConsistent | backend/checker.go:118-126 | With distinct names, the bootstrap leaves exactly the registered schedulers running, each under its own name. |
| Backend.DuplicateSnapshotLeaks | backend/checker.go:119-126 | A name repeated in the snapshot leaves the earlier scheduler running but absent from the map. |
| Backend.StopRegistered | backend/checker.go:150-153 | Stopping the registered scheduler panics exactly when it was already stopped. Otherwise that scheduler is the result of `Stop` on it and leaves the running set; every other scheduler, the map and the next id are unchanged. |
| Backend.ApplyPut | backend/checker.go:143-161 | An undecodable value changes nothing. A PUT panics exactly when the registered scheduler is already stopped, or the check cannot be serialised, or its tick modulus is 0. Otherwise the old scheduler is stopped, a new one runs at the next id, every other scheduler is unchanged, and the map is unchanged. |
| Backend.ApplyDelete | backend/checker.go:162-165 | Only the entry named by the key's last segment leaves the map. No scheduler is stopped. |
| Backend.Step | backend/checker.go:142-166 | Keeps the state well formed; a PUT is `ApplyPut` and a DELETE `ApplyDelete`. Otherwise no contract of its own; see `Watch`. |
| Backend.Watch | backend/checker.go:140-166 | Over any event sequence, the map only shrinks. Every entry left is one the loop started with, unchanged. |
| Backend.PutNeverInstalls | backend/checker.go:150-161 | After a surviving PUT, the new scheduler runs but is in no map entry, so the state is not consistent. |
| Backend.PutKeepsStaleEntry | backend/checker.go:150-161 | After a PUT for a registered name, the map still points at the old scheduler, which is now stopped. |
| Backend.DeleteLeaksTimer | backend/checker.go:162-165 | A DELETE of a registered name leaves its scheduler running and unregistered. |
| Backend.RepeatedPutPanics | backend/checker.go:150-153 | Two PUTs of the same serialisable check for a registered name panic, by closing the old stop channel twice. |
| Backend.MarshalFailurePanics | backend/checker.go:154-158 | A PUT whose check cannot be serialised panics, because `Start` is called on the nil scheduler. |
| Backend.ZeroIntervalPanics | backend/checker.go:154-158 | A PUT of a serialisable check with a zero tick modulus, such as one with no interval, panics in the new scheduler's timer loop, dividing by zero at backend/checker.go:45. |
| Reconcile.Cancel | backend/checker.go:162-165 | The corrected unschedule: the scheduler is stopped and its entry removed in one step. Consistency is kept, no running timer has the name, and every other entry is unaffected. |
| Reconcile.Install | backend/checker.go:154-161 | Builds, starts and registers the scheduler of an unregistered name when the check can be scheduled. A check that does not serialise, or whose tick modulus is 0, leaves the state unchanged. Consistency is kept, other names are unaffected, and no running timer with a zero modulus is added. |
| Reconcile.Upsert | backend/checker.go:143-161 | The corrected PUT. An undecodable value changes nothing. Otherwise the name is registered iff its check can be scheduled, with the new scheduler, and the old one no longer runs. Other names are unaffected, consistency is kept, and no running timer with a zero modulus is added. |
| Reconcile.Remove | backend/checker.go:162-165 | The corrected DELETE. The name leaves the map and no running timer has it. Other names are unaffected and consistency is kept. |
| Reconcile.Run | backend/checker.go:140-166 | The corrected loop keeps consistency over any event sequence. From a state where every running timer has a nonzero tick modulus, so does the result, so no timer loop divides by zero; the corrected steps have no panicking branch. |
| Reconcile.TracksTicking | backend/checker.go:45 | Timers that follow schedulable definitions all have a nonzero tick modulus, so none of their loops divides by zero. |
| Reconcile.UpsertTracks | backend/checker.go:143-161 | An upsert keeps the timers in line with the definitions after the PUT (`Desired`): a decodable check replaces its name's definition, or removes it when it cannot be scheduled. |
| Reconcile.RemoveTracks | backend/checker.go:162-165 | A delete keeps the timers in line with the definitions after the DELETE, which drop the name the key ends with. |
| Reconcile.RunTracks | backend/checker.go:140-166 | Over any event sequence, the timers follow the latest definitions that decode and can be scheduled, keyed by check name (`Replay`). |
| Reconcile.BootstrapTracks | backend/checker.go:118-126 | A successful as-written bootstrap of distinct names follows the snapshot: one running timer per check, built from it. |
| Reconcile.Replace | backend/checker.go:150-161 | Schedules a check in place of whatever its name had. The name is registered iff the check can be scheduled, with the new scheduler; the old one no longer runs. Other names are unaffected, consistency is kept, and no running timer with a zero modulus is added. |
| Reconcile.ReplaceTracks | backend/checker.go:150-161 | A replacement keeps the timers in line with the definitions once the check is stored. |
| Reconcile.FirstRefusal | backend/checker.go:119-125 | No refusal exactly when every check can be scheduled. A refusal is that of some check all of whose predecessors can be scheduled, so it is the first: its serialisation error, or `ZeroInterval` for a zero tick modulus. |
| Reconcile.LoadFrom | backend/checker.go:118-126 | Scheduling the snapshot in order, each check replacing any earlier one of its name, keeps consistency. |
| Reconcile.LoadTracks | backend/checker.go:118-126 | Loading the snapshot keeps the timers in line with the definitions it stores. |
| Reconcile.LatestLast | backend/checker.go:118-126 | For a schedulable snapshot, the stored definitions are keyed by exactly the old names plus the snapshot's names. Each snapshot name is bound to its last occurrence, and other names keep their definitions. |
| Reconcile.StartUp | backend/checker.go:104-126 | The corrected start. It uses the same guards in the same order as `Checker.Start`. It succeeds exactly when they pass and every check can be scheduled; it never crashes, and any failure leaves nothing allocated. On success the timers follow the snapshot's last definition per name. |
| Reconcile.StartUpFailure | backend/checker.go:119-125 | The corrected start fails on the first check that cannot be scheduled, with nothing running: with its serialisation error, as the code does, or with `ZeroInterval` where the code's timer loop would divide by zero. |
| Reconcile.StartUpAgrees | backend/checker.go:104-126 | With distinct, schedulable names, the corrected start gives exactly the state `Checker.Start` gives. |
| Reconcile.LoadIsPopulate | backend/checker.go:118-126 | Over distinct, schedulable, unregistered names, loading the snapshot is the code's bootstrap loop. |
| Reconcile.Serve | backend/checker.go:104-166 | For any guards, snapshot and events: a failed corrected start leaves no timer running. After a successful start and any events, each name whose latest decodable definition can be scheduled has exactly one running timer, built from that definition. No other timer runs, and no running timer's loop divides by zero. |

## Left out

- Goroutines, `time.NewTimer`, `timer.Reset` and `select` are not modelled.
  The loop is taken apart into `Start`, `Tick` and `Stop`, and the clock
  reading is a parameter. Wall-clock behaviour is outside Dafny, and that
  includes "fires every interval" and "no tick after stop".
- MD5, JSON marshalling and unmarshalling, the etcd client and watcher, and
  the store are function-typed inputs (`Env`, `publish`) or parameters
  (`hasClient`, `hasStore`, the snapshot result, the event sequence). They
  are foreign code.
- The message bus is left out. `Tick` receives its publish function, and
  the bus carries no state in the model.
- `Checker.Stop` (backend/checker.go:174-183) is left out. It closes the
  watcher and waits for the goroutine, which is concurrency only.
- `Checker.Status` and `Checker.Err` (backend/checker.go:185-193) are left
  out. They return nil and a channel, so there is nothing to prove.
- Logging is left out: the log call itself is dropped and the control flow
  after it is kept. A publish error is recorded in `Publication.err`; an
  undecodable PUT leaves the state unchanged (backend/checker.go:146-148);
  after a serialisation error in the watcher, `Start` is still called on
  the nil scheduler, which is `Panicked(NilSchedulerStart)`
  (backend/checker.go:155-158).
- The fields of `types.Check` other than name, interval and subscriptions
  are one opaque component, `Check.rest`, as the JSON codec sees them. They
  reach the payload only through `marshal`, which is an input of the model,
  so the model states that the payload is whatever serialising the whole
  check gives, not what it contains.
- The `errChan`, `wg` and `watcher` fields are not modelled.
- The dashboard and CLI files of the repository are not part of this model.
- Scheduler.Start: the branch that returns "check hashing failed" is kept,
  but `SevenBytes` shows it cannot be taken. Callers in `Checker.Start` and
  the watcher ignore `Start`'s error anyway.
- Varint.Scan: `binary.Uvarint` is modelled as current Go releases write
  it, with the ten-byte check. Older releases differ only on inputs longer
  than ten bytes, and the splay never reads more than seven.
- Varint.PutUvarintFits: states only the ten-byte bound. It does not state
  that the tenth byte of a 64-bit value is at most 1.
- Go strings are byte strings. The check name (backend/checker.go:83) and
  the watch key (backend/checker.go:163) are modelled as Dafny `string`s.
  Splitting on the one-byte `/` and comparing names work the same on
  either, so nothing here depends on the encoding.
- Go's `int` is taken as 64 bits: `Check.Interval` is an `i64`, as on the
  64-bit platforms the backend is built for.
- Backend.Spawn: the division by zero happens in the timer goroutine, a
  moment after `Start` returns; the model takes it to happen at once. The
  loop or watcher step that started the scheduler may in fact run a little
  further before the process ends, which the model does not describe.
- Backend.ApplyDelete, Reconcile.Remove, Reconcile.Desired: a DELETE is
  keyed by the last `/`-segment of the watch key, a PUT by the decoded
  check's name. The model assumes, as the store writes them, that keys end
  with their check's name; a key that does not would make the two disagree.
- Reconcile.Desired: follows the definitions that decode and can be
  scheduled, not the raw contents of the store. A PUT whose value does not
  decode leaves the previous definition in force, and a check that cannot
  be scheduled takes its name out of force.
- Splay.FirstTickNanos: states only when the instant exists. It is that
  instant for clock readings at or after the epoch and intervals covered by
  `FirstTickWithinPeriod`; before the epoch it is off by 2^64, and a timer
  whose conversion wraps negative fires at once.
- Splay.FirstTickWithinPeriod: covers intervals of 1 to 9223372036 seconds.
  For longer or negative intervals, the Go duration conversions wrap; this
  is not characterised.

## Intended behaviour versus code

The scheduler exists to keep exactly one timer per check name. That timer
should be replaced when the check is updated and cancelled when it is
deleted. The code differs from this in the places below. The `Backend`
module follows the code. The `Reconcile` module follows the intended
behaviour for the map and the timers, which is where the findings below
point. The splay's units are only discussed here: `Splay.SplayDelay` is a
reference definition, and the scheduler model keeps the code's delay.

- **PUT.** The new scheduler should replace the map entry. The code never
  writes the map.
- **DELETE.** The timer should be cancelled on delete. The code only drops
  the entry.
- **Stop.** Cancelling a timer should be safe to repeat. The code's `Stop`
  checks only for a nil channel. It closes the channel without checking
  whether it is already closed, so a second stop after a start panics
  (`Scheduler.StopLifecycle`).
- **Bootstrap failure.** A failed startup should leave no partial schedule.
  The code does that for the snapshot read. A serialisation failure inside
  the loop, though, leaves the schedulers already started running
  (`Backend.PopulateFailure`). `Reconcile.StartUp` checks the snapshot first
  and leaves nothing running (`Reconcile.StartUpFailure`).
- **Repeated names.** A name that occurs twice in the snapshot should end
  with one timer. The code leaves the earlier scheduler running and
  unregistered (`Backend.DuplicateSnapshotLeaks`); `Reconcile.StartUp`
  cancels it.
- **Checks without an interval.** A check whose tick modulus is 0 (interval
  0, which a PUT without `interval` decodes to, or any multiple of 2^61
  seconds) should be refused or left unscheduled. The code starts it, and
  its timer loop divides by zero (`Backend.ZeroIntervalPanics`,
  `Backend.PopulateCrash`). `Reconcile.Install` leaves it unscheduled and
  `Reconcile.StartUp` refuses it.
- **First tick.** The first tick should land on a phase fixed by the splay.
  The code mixes nanoseconds and milliseconds (`Splay.FirstTickDrifts`);
  `Splay.SplayDelay` matches the units.

## Findings

| source | as written | input that shows it | evidently intended | confidence | as-written member | corrected member |
|---|---|---|---|---|---|---|
| backend/checker.go:150-161 | A PUT stops the old scheduler and starts a new one, but never stores the new one in `c.schedulers`. | Any decodable, serialisable PUT. Afterwards the new scheduler runs unregistered, and the map points at the stopped one. | The new scheduler replaces the entry. | not executed | Backend.PutNeverInstalls | Reconcile.Upsert |
| backend/checker.go:162-165 | A DELETE removes the map entry without stopping the scheduler. | A DELETE for `/sensu.io/checks/cpu-check` while `cpu-check` is registered. Its timer keeps publishing, unregistered. | The scheduler is stopped as its entry is removed. | not executed | Backend.DeleteLeaksTimer | Reconcile.Remove |
| backend/checker.go:150-153 | Because the map keeps the stopped scheduler, the next PUT for the same name calls `Stop` on it again. | Two identical PUTs of a serialisable check whose name is registered. The second closes a closed channel, and the panic ends the backend process. | Each PUT stops only the running scheduler for the name. | not executed | Backend.RepeatedPutPanics | Reconcile.Run |
| backend/checker.go:154-158 | A serialisation error is logged, but `Start` is still called on the nil scheduler. | A PUT whose decoded check fails `json.Marshal`. `newScheduler.Start()` dereferences nil, and the panic ends the backend process. | Log the error and leave the name unscheduled. | not executed | Backend.MarshalFailurePanics | Reconcile.Install |
| backend/checker.go:119-123 | A serialisation failure inside the bootstrap loop returns its error, but the schedulers started for earlier checks keep running. | A snapshot whose second check fails `json.Marshal`. `Start` returns the error while the first check's timer publishes. | A failed start leaves nothing running. | not executed | Backend.PopulateFailure | Reconcile.StartUpFailure |
| backend/checker.go:119-126 | A name repeated in the snapshot overwrites its map entry, and the earlier scheduler keeps running unregistered. | A snapshot holding two serialisable checks named `cpu-check`. Two timers publish for one name. | The later definition replaces the earlier timer. | not executed | Backend.DuplicateSnapshotLeaks | Reconcile.StartUp |
| backend/checker.go:45 | Every started scheduler's loop computes `% (uint64(s.Interval) * 1000)`, which is 0 for interval 0 and for any multiple of 2^61 seconds; the division panics. | A PUT (backend/checker.go:154-158) of a serialisable check with no `interval`, which decodes to 0. The new timer goroutine divides by zero, and the panic ends the backend process. | A check without a usable interval is left unscheduled. | not executed | Backend.ZeroIntervalPanics | Reconcile.Install |

=== FILE: backend.dfy ===
/**
  The `Checker` of the backend as written: the bootstrap of `Checker.Start`
  and the PUT/DELETE handling of its watcher loop, as pure steps over an
  explicit state.

  A scheduler is identified by its allocation number (its address in Go).
  `registry` is the `schedulers` map, `heap` holds every scheduler ever
  allocated, and `running` the ones whose timer loop is live. A Go panic
  (closing a closed channel, calling `Start` on a nil scheduler, a timer
  loop dividing by a zero tick modulus) is the outcome `Panicked`, or
  `Crashed` during the bootstrap. Nothing recovers it, so in the backend it
  ends the whole process, not only the goroutine it happens in.
 */
module Backend {
  import opened GoInts
  import opened Outcomes
  import opened Scheduler
  import GoStrings
  import Splay

  type SchedId = nat

  /** The collaborators the checker calls and the model does not contain: MD5 and JSON. */
  datatype Env = Env(
    md5: string -> Digest,
    marshal: Check -> Result<seq<byte>, string>,
    unmarshal: seq<byte> -> Option<Check>)

  datatype Checker = Checker(
    registry: map<string, SchedId>,
    heap: map<SchedId, MessageScheduler>,
    running: set<SchedId>,
    next: SchedId)

  /** Before `Start`: no map, no scheduler. */
  const Empty: Checker := Checker(map[], map[], {}, 0)

  /**
    Bookkeeping every reachable state keeps: registered and running ids are
    allocated, ids are below `next`, and a scheduler's loop runs exactly when
    its stop channel is open.
   */
  predicate WellFormed(c: Checker) {
    && c.registry.Values <= c.heap.Keys
    && c.running <= c.heap.Keys
    && (forall id :: id in c.heap ==> id < c.next)
    && (forall id :: id in c.heap ==> (id in c.running <==> c.heap[id].stop == OpenChannel))
  }

  /**
    What the scheduler is for: the running timers are exactly the
    registered ones, and each is registered under its own check name.
   */
  predicate Consistent(c: Checker) {
    && WellFormed(c)
    && c.registry.Values == c.running
    && (forall n :: n in c.registry ==> c.heap[c.registry[n]].hashKey == n)
  }

  /** In a consistent state each registered name has exactly one running timer, and no other name has any. */
  lemma OneTimerPerName(c: Checker, name: string)
    requires Consistent(c)
    ensures name in c.registry ==>
              forall id :: id in c.running ==> (c.heap[id].hashKey == name <==> id == c.registry[name])
    ensures name !in c.registry ==> forall id :: id in c.running ==> c.heap[id].hashKey != name
  {
    forall id | id in c.running
      ensures c.heap[id].hashKey == name ==> name in c.registry && id == c.registry[name]
    {
      assert id in c.registry.Values;
      var n :| n in c.registry && c.registry[n] == id;
    }
  }

  /** The scheduler a check gets once it is built and started. */
  function Scheduled(check: Check, env: Env): (s: MessageScheduler)
    requires env.marshal(check).Ok?
  {
    MessageScheduler(check.name, check.interval, env.marshal(check).value, check.subscriptions, OpenChannel)
  }

  /** The panics that end the backend process. */
  datatype Fault =
    | CloseOfClosedChannel(id: SchedId)   // `sched.Stop()` on a scheduler stopped before
    | NilSchedulerStart                   // `newScheduler.Start()` after a construction error
    | DivideByZero(id: SchedId)           // the timer loop of `id` computing its first delay with a zero modulus

  datatype Outcome = Live(checker: Checker) | Panicked(fault: Fault)

  /**
    A check the scheduler can build and run: its event serialises, and its
    interval gives a nonzero tick modulus (`Splay.ZeroModulus` says which
    intervals do not: 0, which a check without an interval decodes to, and
    the multiples of 2^61 seconds).
   */
  predicate Schedulable(check: Check, env: Env)
  {
    env.marshal(check).Ok? && Splay.TickModulus(check.interval) != 0
  }

  /**
    `scheduler.Start()` on a freshly allocated scheduler: its loop runs when
    `Start` returns no error. The loop's first act is the remainder of
    backend/checker.go:45 (`Splay.FirstDelay`), which divides by zero when the
    tick modulus is 0; that panic ends the process.
   */
  function Spawn(c: Checker, s: MessageScheduler, env: Env): (r: Outcome)
    requires WellFormed(c)
    ensures r.Panicked? <==> Splay.TickModulus(s.interval) == 0
    ensures r.Panicked? ==> r.fault == DivideByZero(c.next)
    ensures r.Live? ==>
              && WellFormed(r.checker)
              && r.checker.registry == c.registry && r.checker.next == c.next + 1
              && r.checker.heap == c.heap[c.next := s.(stop := OpenChannel)]
              && r.checker.running == c.running + {c.next}
  {
    var launch := Start(s, env.md5(s.hashKey));
    if Splay.TickModulus(s.interval) == 0 then Panicked(DivideByZero(c.next))
    else
      Live(c.(heap := c.heap[c.next := launch.sched],
              running := if launch.splay.Ok? then c.running + {c.next} else c.running,
              next := c.next + 1))
  }

  // ---------------------------------------------------------------------------
  // Bootstrap

  /**
    The errors `Checker.Start` returns, and the one the corrected start adds:
    a check whose tick modulus is 0, refused before anything starts.
   */
  datatype StartFailure =
    | NoEtcdClient              // "no etcd client available"
    | NoStore                   // "no store available"
    | StoreFailed(reason: string)
    | SchedulerFailed(reason: string)
    | ZeroInterval(name: string)

  /**
    The result of `Checker.Start`: the started checker, the error returned
    with what it leaves running, or the panic of a scheduler's loop.
   */
  datatype Boot =
    | Booted(checker: Checker)
    | BootFailed(failure: StartFailure, leftover: Checker)
    | Crashed(fault: Fault)

  /**
    The loop of `Checker.Start` over the snapshot, from the first remaining
    check. A started scheduler whose tick modulus is 0 panics in its loop;
    the panic is taken to happen at once, since it ends the process whatever
    the loop has done by then.
   */
  function Populate(c: Checker, checks: seq<Check>, env: Env): (r: Boot)
    requires WellFormed(c)
    decreases |checks|
  {
    if |checks| == 0 then Booted(c)
    else match NewSchedulerFromCheck(checks[0], env.marshal)
      case Err(e) => BootFailed(SchedulerFailed(e), c)
      case Ok(s) =>
        if Splay.TickModulus(s.interval) == 0 then Crashed(DivideByZero(c.next))
        else Populate(FirstStep(c, checks[0], s, env), checks[1..], env)
  }

  /**
    `Checker.Start`: the client guard, then the store guard, then the
    snapshot read; each failure returns before the map exists. The snapshot
    is `GetChecks()`; the watcher the method starts afterwards is `Watch`.
   */
  function StartChecker(hasClient: bool, hasStore: bool, snapshot: Result<seq<Check>, string>, env: Env)
    : (r: Boot)
    ensures !hasClient ==> r == BootFailed(NoEtcdClient, Empty)
    ensures hasClient && !hasStore ==> r == BootFailed(NoStore, Empty)
    ensures hasClient && hasStore && snapshot.Err? ==> r == BootFailed(StoreFailed(snapshot.error), Empty)
    ensures r.Booted? ==> hasClient && hasStore && snapshot.Ok?
  {
    if !hasClient then BootFailed(NoEtcdClient, Empty)
    else if !hasStore then BootFailed(NoStore, Empty)
    else match snapshot
      case Err(e) => BootFailed(StoreFailed(e), Empty)
      case Ok(checks) => Populate(Empty, checks, env)
  }

  function Names(checks: seq<Check>): (names: set<string>)
  {
    set k | 0 <= k < |checks| :: checks[k].name
  }

  lemma NamesCons(checks: seq<Check>)
    requires |checks| > 0
    ensures Names(checks) == {checks[0].name} + Names(checks[1..])
  {
    var tail := checks[1..];
    forall n | n in Names(checks)
      ensures n in {checks[0].name} + Names(tail)
    {
      var k :| 0 <= k < |checks| && checks[k].name == n;
      if k > 0 {
        assert tail[k - 1] == checks[k];
      }
    }
    forall n | n in Names(tail)
      ensures n in Names(checks)
    {
      var k :| 0 <= k < |tail| && tail[k].name == n;
      assert checks[k + 1] == tail[k];
    }
  }

  /** `k` is the last position of `name` in the snapshot. */
  predicate IsLastIndex(checks: seq<Check>, name: string, k: int)
  {
    && 0 <= k < |checks|
    && checks[k].name == name
    && forall j :: k < j < |checks| ==> checks[j].name != name
  }

  /** The ids `from`, ..., `from + count - 1`. */
  function Ids(from: nat, count: nat): (ids: set<SchedId>)
    ensures forall k :: k in ids <==> from <= k < from + count
    decreases count
  {
    if count == 0 then {} else Ids(from, count - 1) + {from + count - 1}
  }

  /** The map after the loop: the snapshot's names added, each bound to the id of its last occurrence. */
  ghost predicate RegistryFrom(c: Checker, checks: seq<Check>, d: Checker)
  {
    && d.registry.Keys == c.registry.Keys + Names(checks)
    && (forall n :: n in c.registry && n !in Names(checks) ==> d.registry[n] == c.registry[n])
    && (forall n :: n in Names(checks) ==>
          n in d.registry && d.registry[n] >= c.next && IsLastIndex(checks, n, d.registry[n] - c.next))
  }

  /** The heap after the loop: one started scheduler per check, at consecutive ids... */
  ghost predicate HeapNew(from: nat, checks: seq<Check>, env: Env, d: Checker)
  {
    forall k :: 0 <= k < |checks| ==> ScheduledAt(d, from + k, checks[k], env)
  }

  /** `id` holds the started scheduler of `check`. */
  ghost predicate ScheduledAt(d: Checker, id: SchedId, check: Check, env: Env)
  {
    id in d.heap && env.marshal(check).Ok? && d.heap[id] == Scheduled(check, env)
  }

  /** ... and every scheduler allocated before, unchanged. */
  ghost predicate HeapKept(c: Checker, d: Checker)
  {
    forall id :: id in c.heap ==> id in d.heap && d.heap[id] == c.heap[id]
  }

  /** `d` is what the bootstrap loop makes of `c` and `checks`. */
  ghost predicate PopulatedFrom(c: Checker, checks: seq<Check>, env: Env, d: Checker)
  {
    && WellFormed(d)
    && d.next == c.next + |checks|
    && RegistryFrom(c, checks, d)
    && HeapNew(c.next, checks, env, d)
    && HeapKept(c, d)
    && d.running == c.running + Ids(c.next, |checks|)
  }

  /**
    The state after the first bootstrap step: the check's scheduler started
    and its name bound to it. It is written out field by field; `FirstStepSpawns`
    shows it is `Spawn` followed by the map write.
   */
  function FirstStep(c: Checker, check: Check, s: MessageScheduler, env: Env): (r: Checker)
    requires WellFormed(c)
    ensures WellFormed(r)
    ensures r.registry == c.registry[check.name := c.next]
    ensures r.heap == c.heap[c.next := s.(stop := OpenChannel)]
    ensures r.running == c.running + {c.next}
    ensures r.next == c.next + 1
  {
    Checker(c.registry[check.name := c.next], c.heap[c.next := s.(stop := OpenChannel)], c.running + {c.next}, c.next + 1)
  }

  /** One step of the bootstrap loop is `scheduler.Start()` on the new scheduler, then the map write. */
  lemma FirstStepSpawns(c: Checker, check: Check, s: MessageScheduler, env: Env)
    requires WellFormed(c) && Splay.TickModulus(s.interval) != 0
    ensures Spawn(c, s, env) == Live(FirstStep(c, check, s, env).(registry := c.registry))
  {
  }

  /** Where the rest of the loop binds `n`, the whole loop binds it too, one position later. */
  lemma LastIndexCons(checks: seq<Check>, n: string, k: int)
    requires |checks| > 0 && IsLastIndex(checks[1..], n, k)
    ensures IsLastIndex(checks, n, k + 1)
  {
    var tail := checks[1..];
    assert checks[k + 1] == tail[k];
    forall j | k + 1 < j < |checks|
      ensures checks[j].name != n
    {
      assert checks[j] == tail[j - 1];
    }
  }

  /** A name the rest of the snapshot lacks has its last occurrence at the head. */
  lemma LastIndexHead(checks: seq<Check>)
    requires |checks| > 0 && checks[0].name !in Names(checks[1..])
    ensures IsLastIndex(checks, checks[0].name, 0)
  {
    var tail := checks[1..];
    forall j | 0 < j < |checks|
      ensures checks[j].name != checks[0].name
    {
      assert checks[j] == tail[j - 1];
      assert checks[j].name in Names(tail);
    }
  }

  lemma RegistryCons(c: Checker, checks: seq<Check>, s: MessageScheduler, env: Env, d: Checker)
    requires WellFormed(c) && |checks| > 0
    requires RegistryFrom(FirstStep(c, checks[0], s, env), checks[1..], d)
    ensures RegistryFrom(c, checks, d)
  {
    var c2 := FirstStep(c, checks[0], s, env);
    var tail := checks[1..];
    NamesCons(checks);
    assert d.registry.Keys == c.registry.Keys + Names(checks);
    forall n | n in Names(checks)
      ensures n in d.registry && d.registry[n] >= c.next && IsLastIndex(checks, n, d.registry[n] - c.next)
    {
      if n in Names(tail) {
        LastIndexCons(checks, n, d.registry[n] - c2.next);
      } else {
        assert n == checks[0].name;
        LastIndexHead(checks);
      }
    }
  }

  /** The ids of a run of timers are its first id and the ids of the rest. */
  lemma IdsCons(from: nat, count: nat)
    ensures Ids(from, count + 1) == {from} + Ids(from + 1, count)
  {
  }

  /** Every check of the snapshot is schedulable. */
  predicate AllSchedulable(checks: seq<Check>, env: Env)
  {
    forall k :: 0 <= k < |checks| ==> Schedulable(checks[k], env)
  }

  /** The bootstrap loop succeeds exactly when every check of the snapshot is schedulable. */
  lemma {:induction false} PopulateSucceeds(c: Checker, checks: seq<Check>, env: Env)
    requires WellFormed(c)
    ensures Populate(c, checks, env).Booted? <==> AllSchedulable(checks, env)
    decreases |checks|
  {
    if |checks| > 0 {
      if !Schedulable(checks[0], env) {
        assert !Populate(c, checks, env).Booted?;
      } else {
        var s := NewSchedulerFromCheck(checks[0], env.marshal).value;
        var c2 := FirstStep(c, checks[0], s, env);
        var tail := checks[1..];
        assert Populate(c, checks, env) == Populate(c2, tail, env);
        PopulateSucceeds(c2, tail, env);
        if AllSchedulable(tail, env) {
          forall k | 0 < k < |checks|
            ensures Schedulable(checks[k], env)
          {
            assert checks[k] == tail[k - 1];
          }
        } else {
          var k :| 0 <= k < |tail| && !Schedulable(tail[k], env);
          assert checks[k + 1] == tail[k];
        }
      }
    }
  }

  /** After a successful loop, the map binds each name of the snapshot to the id of its last occurrence. */
  lemma {:induction false} PopulateRegistry(c: Checker, checks: seq<Check>, env: Env)
    requires WellFormed(c)
    ensures Populate(c, checks, env).Booted? ==> RegistryFrom(c, checks, Populate(c, checks, env).checker)
    decreases |checks|
  {
    if |checks| == 0 {
      assert Names(checks) == {};
    } else {
      match NewSchedulerFromCheck(checks[0], env.marshal)
      case Err(e) =>
      case Ok(s) =>
        if Splay.TickModulus(s.interval) != 0 {
          var c2 := FirstStep(c, checks[0], s, env);
          assert Populate(c, checks, env) == Populate(c2, checks[1..], env);
          PopulateRegistry(c2, checks[1..], env);
          if Populate(c, checks, env).Booted? {
            RegistryCons(c, checks, s, env, Populate(c, checks, env).checker);
          }
        }
    }
  }

  /** A scheduler allocated before the loop is still there, unchanged, after a successful loop. */
  lemma {:induction false} PopulateKeepsAt(c: Checker, checks: seq<Check>, env: Env, d: Checker, id: SchedId)
    requires WellFormed(c) && Populate(c, checks, env) == Booted(d)
    requires id in c.heap
    ensures id in d.heap && d.heap[id] == c.heap[id]
    decreases |checks|
  {
    if |checks| > 0 {
      var s := NewSchedulerFromCheck(checks[0], env.marshal).value;
      var c2 := FirstStep(c, checks[0], s, env);
      PopulateBootedTail(c, checks, env, d);
      assert id in c2.heap && c2.heap[id] == c.heap[id];
      PopulateKeepsAt(c2, checks[1..], env, d, id);
    }
  }

  /** A loop that boots started its first check's scheduler and booted the rest from there. */
  lemma PopulateBootedTail(c: Checker, checks: seq<Check>, env: Env, d: Checker)
    requires WellFormed(c) && |checks| > 0 && Populate(c, checks, env) == Booted(d)
    ensures NewSchedulerFromCheck(checks[0], env.marshal).Ok?
    ensures var s := NewSchedulerFromCheck(checks[0], env.marshal).value;
            Populate(FirstStep(c, checks[0], s, env), checks[1..], env) == Booted(d)
  {
  }

  /** After a successful loop, every scheduler allocated before it is kept unchanged. */
  lemma PopulateHeapKept(c: Checker, checks: seq<Check>, env: Env, d: Checker)
    requires WellFormed(c) && Populate(c, checks, env) == Booted(d)
    ensures HeapKept(c, d)
  {
    forall id | id in c.heap
      ensures id in d.heap && d.heap[id] == c.heap[id]
    {
      PopulateKeepsAt(c, checks, env, d, id);
    }
  }

  /** After a successful loop, each check has its started scheduler, at consecutive ids from `c.next`. */
  lemma PopulateHeapNew(c: Checker, checks: seq<Check>, env: Env, d: Checker)
    requires WellFormed(c) && Populate(c, checks, env) == Booted(d)
    ensures HeapNew(c.next, checks, env, d)
  {
    forall k | 0 <= k < |checks|
      ensures ScheduledAt(d, c.next + k, checks[k], env)
    {
      PopulateHeapAt(c, checks, env, d, k);
    }
  }

  /** After a successful loop, the `k`-th check has its started scheduler at id `c.next + k`. */
  lemma {:induction false} PopulateHeapAt(c: Checker, checks: seq<Check>, env: Env, d: Checker, k: nat)
    requires WellFormed(c) && Populate(c, checks, env) == Booted(d) && k < |checks|
    ensures ScheduledAt(d, c.next + k, checks[k], env)
    decreases |checks|
  {
    PopulateBootedTail(c, checks, env, d);
    var s := NewSchedulerFromCheck(checks[0], env.marshal).value;
    var c2 := FirstStep(c, checks[0], s, env);
    if k == 0 {
      PopulateKeepsAt(c2, checks[1..], env, d, c.next);
      assert Scheduled(checks[0], env) == s.(stop := OpenChannel);
    } else {
      PopulateHeapAt(c2, checks[1..], env, d, k - 1);
      assert checks[1..][k - 1] == checks[k];
    }
  }

  /** After a successful loop, one id is allocated and one scheduler started per check. */
  lemma {:induction false} PopulateRunning(c: Checker, checks: seq<Check>, env: Env)
    requires WellFormed(c)
    ensures var r := Populate(c, checks, env);
            r.Booted? ==>
              && WellFormed(r.checker)
              && r.checker.next == c.next + |checks|
              && r.checker.running == c.running + Ids(c.next, |checks|)
    decreases |checks|
  {
    if |checks| > 0 {
      match NewSchedulerFromCheck(checks[0], env.marshal)
      case Err(e) =>
      case Ok(s) =>
        if Splay.TickModulus(s.interval) != 0 {
          var c2 := FirstStep(c, checks[0], s, env);
          assert Populate(c, checks, env) == Populate(c2, checks[1..], env);
          PopulateRunning(c2, checks[1..], env);
          IdsCons(c.next, |checks| - 1);
        }
    }
  }

  /**
    A successful bootstrap loop registers every name of the snapshot under
    the scheduler of its LAST occurrence, and starts one scheduler per check.
   */
  lemma PopulateSpec(c: Checker, checks: seq<Check>, env: Env)
    requires WellFormed(c)
    ensures Populate(c, checks, env).Booted? ==> PopulatedFrom(c, checks, env, Populate(c, checks, env).checker)
  {
    PopulateRegistry(c, checks, env);
    if Populate(c, checks, env).Booted? {
      PopulateHeapKept(c, checks, env, Populate(c, checks, env).checker);
      PopulateHeapNew(c, checks, env, Populate(c, checks, env).checker);
    }
    PopulateRunning(c, checks, env);
  }

  /**
    `Checker.Start` with a client, a store and a snapshot: it succeeds
    exactly when every check is schedulable; the map's keys are then exactly the
    snapshot's names, each bound to the scheduler of its last occurrence,
    and one scheduler per snapshot entry is running.
   */
  lemma StartCheckerBootstrap(checks: seq<Check>, env: Env)
    ensures var r := StartChecker(true, true, Ok(checks), env);
      && (r.Booted? <==> AllSchedulable(checks, env))
      && (r.Booted? ==>
            && WellFormed(r.checker)
            && r.checker.registry.Keys == Names(checks)
            && (forall n :: n in r.checker.registry ==> IsLastIndex(checks, n, r.checker.registry[n]))
            && (forall n :: n in r.checker.registry ==>
                  r.checker.heap[r.checker.registry[n]] == Scheduled(checks[r.checker.registry[n]], env))
            && r.checker.running == Ids(0, |checks|))
  {
    var r := StartChecker(true, true, Ok(checks), env);
    assert r == Populate(Empty, checks, env);
    PopulateSucceeds(Empty, checks, env);
    PopulateSpec(Empty, checks, env);
    if r.Booted? {
      PopulatedFromEmpty(checks, env, r.checker);
    }
  }

  /**
    The bootstrap loop stops at the first check that is not schedulable. If
    it cannot be serialised, the loop returns its error, and the schedulers
    started for the checks before it keep running: nothing stops them.
   */
  lemma {:induction false} PopulateFailure(c: Checker, checks: seq<Check>, env: Env, k: nat)
    requires WellFormed(c)
    requires k < |checks| && env.marshal(checks[k]).Err?
    requires forall j :: 0 <= j < k ==> Schedulable(checks[j], env)
    ensures var r := Populate(c, checks, env);
            && r.BootFailed?
            && r.failure == SchedulerFailed(env.marshal(checks[k]).error)
            && r.leftover.next == c.next + k
            && r.leftover.running == c.running + Ids(c.next, k)
    decreases k
  {
    if k > 0 {
      var s := NewSchedulerFromCheck(checks[0], env.marshal).value;
      var c2 := FirstStep(c, checks[0], s, env);
      var tail := checks[1..];
      assert Populate(c, checks, env) == Populate(c2, tail, env);
      FailureInTail(checks, env, k);
      PopulateFailure(c2, tail, env, k - 1);
      IdsCons(c.next, k - 1);
    }
  }

  /**
    If the first unschedulable check serialises, its tick modulus is 0: the
    loop of the scheduler started for it panics and the process ends.
   */
  lemma {:induction false} PopulateCrash(c: Checker, checks: seq<Check>, env: Env, k: nat)
    requires WellFormed(c)
    requires k < |checks| && env.marshal(checks[k]).Ok? && Splay.TickModulus(checks[k].interval) == 0
    requires forall j :: 0 <= j < k ==> Schedulable(checks[j], env)
    ensures Populate(c, checks, env) == Crashed(DivideByZero(c.next + k))
    decreases k
  {
    if k > 0 {
      var s := NewSchedulerFromCheck(checks[0], env.marshal).value;
      var c2 := FirstStep(c, checks[0], s, env);
      var tail := checks[1..];
      assert Populate(c, checks, env) == Populate(c2, tail, env);
      FailureInTail(checks, env, k);
      PopulateCrash(c2, tail, env, k - 1);
    }
  }

  /** The first unschedulable check at `k > 0` is the first unschedulable check of the tail, at `k - 1`. */
  lemma FailureInTail(checks: seq<Check>, env: Env, k: nat)
    requires 0 < k < |checks|
    requires forall j :: 0 <= j < k ==> Schedulable(checks[j], env)
    ensures checks[1..][k - 1] == checks[k]
    ensures forall j :: 0 <= j < k - 1 ==> Schedulable(checks[1..][j], env)
  {
    forall j | 0 <= j < k - 1
      ensures Schedulable(checks[1..][j], env)
    {
      assert checks[1..][j] == checks[j + 1];
    }
  }

  lemma PopulatedFromEmpty(checks: seq<Check>, env: Env, d: Checker)
    requires PopulatedFrom(Empty, checks, env, d)
    ensures WellFormed(d)
    ensures d.registry.Keys == Names(checks)
    ensures forall n :: n in d.registry ==> IsLastIndex(checks, n, d.registry[n])
    ensures forall n :: n in d.registry ==> d.heap[d.registry[n]] == Scheduled(checks[d.registry[n]], env)
    ensures d.running == Ids(0, |checks|)
  {
    RegistryFromEmpty(checks, d);
    HeapFromEmpty(checks, env, d);
  }

  lemma RegistryFromEmpty(checks: seq<Check>, d: Checker)
    requires RegistryFrom(Empty, checks, d)
    ensures d.registry.Keys == Names(checks)
    ensures forall n :: n in d.registry ==> IsLastIndex(checks, n, d.registry[n])
  {
    forall n | n in d.registry
      ensures IsLastIndex(checks, n, d.registry[n])
    {
      assert n in Names(checks);
      assert IsLastIndex(checks, n, d.registry[n] - 0);
    }
  }

  lemma HeapFromEmpty(checks: seq<Check>, env: Env, d: Checker)
    requires HeapNew(0, checks, env, d)
    requires forall n :: n in d.registry ==> IsLastIndex(checks, n, d.registry[n])
    ensures forall n :: n in d.registry ==>
              && 0 <= d.registry[n] < |checks|
              && d.registry[n] in d.heap
              && d.heap[d.registry[n]] == Scheduled(checks[d.registry[n]], env)
  {
    forall n | n in d.registry
      ensures 0 <= d.registry[n] < |checks|
      ensures d.registry[n] in d.heap && d.heap[d.registry[n]] == Scheduled(checks[d.registry[n]], env)
    {
      var k := d.registry[n];
      assert IsLastIndex(checks, n, k);
      assert 0 + k in d.heap && d.heap[0 + k] == Scheduled(checks[k], env);
    }
  }

  /** Names in the snapshot are pairwise distinct. */
  predicate DistinctNames(checks: seq<Check>)
  {
    forall i, j :: 0 <= i < j < |checks| ==> checks[i].name != checks[j].name
  }

  /** With distinct names, the bootstrap leaves exactly one running timer per registered name. */
  lemma BootstrapConsistent(checks: seq<Check>, env: Env)
    requires DistinctNames(checks)
    requires StartChecker(true, true, Ok(checks), env).Booted?
    ensures Consistent(StartChecker(true, true, Ok(checks), env).checker)
  {
    var c := StartChecker(true, true, Ok(checks), env).checker;
    StartCheckerBootstrap(checks, env);
    forall id | id in c.running
      ensures id in c.registry.Values
    {
      var n := checks[id].name;
      assert n in Names(checks);
      assert IsLastIndex(checks, n, c.registry[n]);
    }
  }

  /** A repeated name in the snapshot leaves the earlier scheduler running but unregistered. */
  lemma DuplicateSnapshotLeaks(checks: seq<Check>, env: Env, i: nat, j: nat)
    requires i < j < |checks| && checks[i].name == checks[j].name
    requires StartChecker(true, true, Ok(checks), env).Booted?
    ensures var c := StartChecker(true, true, Ok(checks), env).checker;
            i in c.running && i !in c.registry.Values
  {
    var c := StartChecker(true, true, Ok(checks), env).checker;
    StartCheckerBootstrap(checks, env);
    forall n | n in c.registry
      ensures c.registry[n] != i
    {
      assert IsLastIndex(checks, n, c.registry[n]);
    }
  }

  // ---------------------------------------------------------------------------
  // The watcher loop

  /** A watch event under the checks prefix: a PUT carries the stored value, a DELETE only the key. */
  datatype Event = Put(key: string, value: seq<byte>) | Delete(key: string)

  /** `sched.Stop()` on the scheduler the map holds for `name`. */
  function StopRegistered(c: Checker, name: string): (r: Outcome)
    requires WellFormed(c) && name in c.registry
    ensures r.Panicked? <==> c.heap[c.registry[name]].stop == ClosedChannel
    ensures r.Live? ==>
              && WellFormed(r.checker)
              && r.checker.registry == c.registry && r.checker.next == c.next
              && r.checker.heap.Keys == c.heap.Keys
              && r.checker.running == c.running - {c.registry[name]}
              && r.checker.heap[c.registry[name]].stop != OpenChannel
              && Stop(c.heap[c.registry[name]]) == Some(r.checker.heap[c.registry[name]])
              && forall id :: id in c.heap && id != c.registry[name] ==> r.checker.heap[id] == c.heap[id]
  {
    var id := c.registry[name];
    match Stop(c.heap[id])
    case None => Panicked(CloseOfClosedChannel(id))
    case Some(s) => Live(c.(heap := c.heap[id := s], running := c.running - {id}))
  }

  /**
    The PUT branch: an undecodable value changes nothing; otherwise the
    registered scheduler for the name, if any, is stopped and a new one is
    built and started, but the map is never written, so it keeps pointing
    at the old scheduler. A construction error panics on the nil scheduler,
    and a zero tick modulus panics in the new scheduler's loop.
   */
  function ApplyPut(c: Checker, value: seq<byte>, env: Env): (r: Outcome)
    requires WellFormed(c)
    ensures r.Live? ==> WellFormed(r.checker)
    ensures env.unmarshal(value).None? ==> r == Live(c)
    ensures r.Live? ==> r.checker.registry == c.registry
    ensures r.Panicked? <==>
              && env.unmarshal(value).Some?
              && var check := env.unmarshal(value).value;
                 || (check.name in c.registry && c.heap[c.registry[check.name]].stop == ClosedChannel)
                 || !Schedulable(check, env)
    ensures env.unmarshal(value).Some? && r.Live? ==>
              var check := env.unmarshal(value).value;
              var stopped := if check.name in c.registry then {c.registry[check.name]} else {};
              && Schedulable(check, env)
              && r.checker.next == c.next + 1
              && r.checker.heap.Keys == c.heap.Keys + {c.next}
              && r.checker.heap[c.next] == Scheduled(check, env)
              && (check.name in c.registry ==>
                    Stop(c.heap[c.registry[check.name]]) == Some(r.checker.heap[c.registry[check.name]]))
              && (forall id :: id in c.heap && id !in stopped ==> r.checker.heap[id] == c.heap[id])
              && r.checker.running == c.running - stopped + {c.next}
  {
    match env.unmarshal(value)
    case None => Live(c)
    case Some(check) =>
      var stopped := if check.name in c.registry then StopRegistered(c, check.name) else Live(c);
      match stopped
      case Panicked(f) => Panicked(f)
      case Live(c1) =>
        match NewSchedulerFromCheck(check, env.marshal)
        case Err(_) => Panicked(NilSchedulerStart)
        case Ok(s) => Spawn(c1, s, env)
  }

  /**
    The DELETE branch: the name is the last `/`-separated segment of the key;
    only that entry leaves the map, and its scheduler is not stopped.
   */
  function ApplyDelete(c: Checker, key: string): (r: Checker)
    requires WellFormed(c)
    ensures WellFormed(r)
    ensures r.registry == c.registry - {GoStrings.LastSegment(key)}
    ensures r.heap == c.heap && r.running == c.running && r.next == c.next
  {
    c.(registry := c.registry - {GoStrings.LastSegment(key)})
  }

  function Step(c: Checker, ev: Event, env: Env): (r: Outcome)
    requires WellFormed(c)
    ensures r.Live? ==> WellFormed(r.checker)
  {
    match ev
    case Put(_, value) => ApplyPut(c, value, env)
    case Delete(key) => Live(ApplyDelete(c, key))
  }

  /**
    The watcher loop over a sequence of events, in arrival order, until the
    events run out or the goroutine panics. The map only ever shrinks: every
    entry left is one the loop started with, unchanged.
   */
  function Watch(c: Checker, events: seq<Event>, env: Env): (r: Outcome)
    requires WellFormed(c)
    ensures r.Live? ==> WellFormed(r.checker)
    ensures r.Live? ==> r.checker.registry.Keys <= c.registry.Keys
    ensures r.Live? ==> forall n :: n in r.checker.registry ==> r.checker.registry[n] == c.registry[n]
    decreases |events|
  {
    if |events| == 0 then Live(c)
    else match Step(c, events[0], env)
      case Panicked(f) => Panicked(f)
      case Live(c1) => Watch(c1, events[1..], env)
  }

  /** A PUT starts a scheduler that the map never records: consistency is lost. */
  lemma PutNeverInstalls(c: Checker, key: string, value: seq<byte>, env: Env)
    requires WellFormed(c)
    requires env.unmarshal(value).Some?
    requires Step(c, Put(key, value), env).Live?
    ensures var r := Step(c, Put(key, value), env).checker;
            c.next in r.running && c.next !in r.registry.Values && !Consistent(r)
  {
    var r := Step(c, Put(key, value), env).checker;
    assert c.next in r.running;
    forall n | n in r.registry
      ensures r.registry[n] != c.next
    {
      assert c.registry[n] in c.heap;
    }
  }

  /** After a PUT for a registered name, the map still holds the old scheduler, now stopped. */
  lemma PutKeepsStaleEntry(c: Checker, key: string, value: seq<byte>, env: Env)
    requires Consistent(c)
    requires env.unmarshal(value).Some? && env.unmarshal(value).value.name in c.registry
    requires Step(c, Put(key, value), env).Live?
    ensures var name := env.unmarshal(value).value.name;
            var r := Step(c, Put(key, value), env).checker;
            && r.registry[name] == c.registry[name]
            && r.registry[name] !in r.running
            && r.heap[r.registry[name]].stop == ClosedChannel
  {
    var name := env.unmarshal(value).value.name;
    var id := c.registry[name];
    assert id in c.running;
  }

  /** A DELETE drops the entry of a running scheduler and leaves its timer running, unregistered. */
  lemma DeleteLeaksTimer(c: Checker, key: string, env: Env)
    requires Consistent(c)
    requires GoStrings.LastSegment(key) in c.registry
    ensures var id := c.registry[GoStrings.LastSegment(key)];
            var r := Step(c, Delete(key), env).checker;
            id in r.running && id !in r.registry.Values && !Consistent(r)
  {
    var name := GoStrings.LastSegment(key);
    var id := c.registry[name];
    var r := Step(c, Delete(key), env).checker;
    forall n | n in r.registry
      ensures r.registry[n] != id
    {
      assert c.heap[c.registry[n]].hashKey == n;
      assert n != name;
    }
  }

  /**
    Two PUTs of the same decodable, schedulable check for a registered name
    panic: the second stops, again, the scheduler the first one already
    stopped. (An unschedulable check panics at the first PUT already.)
   */
  lemma RepeatedPutPanics(c: Checker, key: string, value: seq<byte>, env: Env)
    requires Consistent(c)
    requires env.unmarshal(value).Some?
    requires env.unmarshal(value).value.name in c.registry
    requires Schedulable(env.unmarshal(value).value, env)
    ensures Watch(c, [Put(key, value), Put(key, value)], env)
            == Panicked(CloseOfClosedChannel(c.registry[env.unmarshal(value).value.name]))
  {
    var check := env.unmarshal(value).value;
    var id := c.registry[check.name];
    assert id in c.running;
    var c1 := Step(c, Put(key, value), env).checker;
    PutKeepsStaleEntry(c, key, value, env);
    assert Watch(c, [Put(key, value), Put(key, value)], env) == Watch(c1, [Put(key, value)], env);
  }

  /** A PUT whose check cannot be serialised panics on the nil scheduler. */
  lemma MarshalFailurePanics(c: Checker, key: string, value: seq<byte>, env: Env)
    requires Consistent(c)
    requires env.unmarshal(value).Some?
    requires env.marshal(env.unmarshal(value).value).Err?
    ensures Step(c, Put(key, value), env) == Panicked(NilSchedulerStart)
  {
    var check := env.unmarshal(value).value;
    if check.name in c.registry {
      assert c.registry[check.name] in c.running;
    }
  }

  /**
    A PUT of a serialisable check whose tick modulus is 0, such as a check
    without an interval, starts a scheduler whose loop divides by zero: the
    backend process ends.
   */
  lemma ZeroIntervalPanics(c: Checker, key: string, value: seq<byte>, env: Env)
    requires Consistent(c)
    requires env.unmarshal(value).Some?
    requires env.marshal(env.unmarshal(value).value).Ok?
    requires Splay.TickModulus(env.unmarshal(value).value.interval) == 0
    ensures Step(c, Put(key, value), env) == Panicked(DivideByZero(c.next))
  {
    var check := env.unmarshal(value).value;
    if check.name in c.registry {
      assert c.registry[check.name] in c.running;
    }
  }
}

=== FILE: goints.dfy ===
/**
  Fixed-width integers of Go, written out over Dafny's unbounded `int`:
  bytes, `uint64`, `int64`, powers of two and the wrapping conversions
  `uint64(x)` and `int64(x)` that Go applies to out-of-range values.
 */
module GoInts {

  const TWO_63: int := 0x8000_0000_0000_0000
  const TWO_64: int := 0x1_0000_0000_0000_0000

  type byte = b: int | 0 <= b < 0x100
  type u64 = x: int | 0 <= x < TWO_64
  type i64 = x: int | -TWO_63 <= x < TWO_63

  function Pow2(k: nat): (r: nat)
    ensures r >= 1
  {
    if k == 0 then 1 else 2 * Pow2(k - 1)
  }

  lemma {:induction false} Pow2Add(a: nat, b: nat)
    ensures Pow2(a + b) == Pow2(a) * Pow2(b)
  {
    if a > 0 {
      Pow2Add(a - 1, b);
    }
  }

  lemma {:induction false} Pow2Monotone(a: nat, b: nat)
    requires a <= b
    ensures Pow2(a) <= Pow2(b)
  {
    if a < b {
      Pow2Monotone(a, b - 1);
    }
  }

  /** One more seven-bit group multiplies the weight by 0x80. */
  lemma Pow2Step(k: nat)
    ensures Pow2(k + 7) == 0x80 * Pow2(k)
  {
    Pow2Add(k, 7);
    assert Pow2(7) == 0x80;
  }

  lemma Pow2Of32()
    ensures Pow2(32) == 0x1_0000_0000
  {
    assert Pow2(8) == 0x100;
    assert Pow2(16) == 0x1_0000 by { Pow2Add(8, 8); }
    Pow2Add(16, 16);
  }

  /** The powers of two the model refers to by value. */
  lemma Pow2Constants()
    ensures Pow2(7) == 0x80
    ensures Pow2(61) == 0x2000_0000_0000_0000
    ensures Pow2(63) == TWO_63
    ensures Pow2(64) == TWO_64
  {
    assert Pow2(7) == 0x80;
    assert Pow2(64) == TWO_64 by { Pow2Of32(); Pow2Add(32, 32); }
    assert Pow2(64) == Pow2(61) * 8 by { Pow2Add(61, 3); }
    assert Pow2(64) == Pow2(63) * 2 by { Pow2Add(63, 1); }
  }

  /** Go's conversion `uint64(x)`, and every wrapping `uint64` operation. */
  function U64(x: int): (r: u64)
    ensures 0 <= x < TWO_64 ==> r == x
    ensures (x - r) % TWO_64 == 0
  {
    x % TWO_64
  }

  /** Go's conversion `int64(x)` (two's complement wrap-around). */
  function I64(x: int): (r: i64)
    ensures -TWO_63 <= x < TWO_63 ==> r == x
    ensures (x - r) % TWO_64 == 0
  {
    (x + TWO_63) % TWO_64 - TWO_63
  }
}

=== FILE: gostrings.dfy ===
/**
  The part of Go's `strings` package the watcher uses: `strings.Split` with a
  one-character separator, its inverse `strings.Join`, and the last path
  segment of a key.
 */
module GoStrings {

  /**
    `strings.Split(s, string(sep))`: the pieces of `s` between separators, in
    order. An empty `s` gives one empty piece, so the result is never empty.
   */
  function Split(s: string, sep: char): (parts: seq<string>)
    ensures |parts| >= 1
    ensures forall k :: 0 <= k < |parts| ==> sep !in parts[k]
    ensures |parts| == 1 <==> sep !in s
    ensures |parts| == 1 ==> parts[0] == s
    decreases |s|
  {
    if |s| == 0 then [""]
    else
      var tail := Split(s[1..], sep);
      if s[0] == sep then [""] + tail
      else [[s[0]] + tail[0]] + tail[1..]
  }

  /** `strings.Join(parts, string(sep))`. */
  function Join(parts: seq<string>, sep: char): (s: string)
    requires |parts| >= 1
    decreases |parts|
  {
    if |parts| == 1 then parts[0] else parts[0] + [sep] + Join(parts[1..], sep)
  }

  lemma JoinCons(first: string, rest: seq<string>, sep: char)
    requires |rest| >= 1
    ensures Join([first] + rest, sep) == first + [sep] + Join(rest, sep)
  {
    assert ([first] + rest)[1..] == rest;
  }

  lemma JoinExtendHead(c: char, parts: seq<string>, sep: char)
    requires |parts| >= 1
    ensures Join([[c] + parts[0]] + parts[1..], sep) == [c] + Join(parts, sep)
  {
    if |parts| > 1 {
      JoinCons([c] + parts[0], parts[1..], sep);
    }
  }

  /** Joining the pieces of a split gives the string back. */
  lemma {:induction false} JoinSplit(s: string, sep: char)
    ensures Join(Split(s, sep), sep) == s
    decreases |s|
  {
    if |s| > 0 {
      var tail := Split(s[1..], sep);
      JoinSplit(s[1..], sep);
      if s[0] == sep {
        assert Split(s, sep) == [""] + tail;
        JoinCons("", tail, sep);
      } else {
        assert Split(s, sep) == [[s[0]] + tail[0]] + tail[1..];
        JoinExtendHead(s[0], tail, sep);
      }
      assert s == [s[0]] + s[1..];
    }
  }

  lemma {:induction false} SplitAfterPiece(p: string, r: string, sep: char)
    requires sep !in p
    ensures Split(p + [sep] + r, sep) == [p] + Split(r, sep)
    decreases |p|
  {
    var s := p + [sep] + r;
    if |p| == 0 {
      assert s[1..] == r;
    } else {
      assert s[1..] == p[1..] + [sep] + r;
      SplitAfterPiece(p[1..], r, sep);
      assert [p[0]] + p[1..] == p;
    }
  }

  /** Splitting a join of separator-free pieces gives the pieces back. */
  lemma {:induction false} SplitJoin(parts: seq<string>, sep: char)
    requires |parts| >= 1
    requires forall k :: 0 <= k < |parts| ==> sep !in parts[k]
    ensures Split(Join(parts, sep), sep) == parts
    decreases |parts|
  {
    if |parts| > 1 {
      SplitJoin(parts[1..], sep);
      SplitAfterPiece(parts[0], Join(parts[1..], sep), sep);
      assert [parts[0]] + parts[1..] == parts;
    }
  }

  lemma {:induction false} JoinAppend(parts: seq<string>, last: string, sep: char)
    requires |parts| >= 1
    ensures Join(parts + [last], sep) == Join(parts, sep) + [sep] + last
    decreases |parts|
  {
    if |parts| > 1 {
      JoinAppend(parts[1..], last, sep);
      assert (parts + [last])[1..] == parts[1..] + [last];
    }
  }

  /** `parts[len(parts)-1]` of `strings.Split(key, "/")`: the name after the last slash. */
  function LastSegment(key: string): (name: string)
    ensures '/' !in name
  {
    var parts := Split(key, '/');
    parts[|parts| - 1]
  }

  /** The last segment of `prefix/name` is `name`, whatever the prefix, when `name` has no slash. */
  lemma LastSegmentOfPath(prefix: string, name: string)
    requires '/' !in name
    ensures LastSegment(prefix + "/" + name) == name
  {
    var parts := Split(prefix, '/') + [name];
    JoinAppend(Split(prefix, '/'), name, '/');
    JoinSplit(prefix, '/');
    forall k | 0 <= k < |parts|
      ensures '/' !in parts[k]
    {
      if k < |parts| - 1 {
        assert parts[k] == Split(prefix, '/')[k];
      }
    }
    SplitJoin(parts, '/');
  }

  /** The key of a deleted check gives back the check's name. */
  lemma CheckKeyName()
    ensures LastSegment("/sensu.io/checks/cpu-check") == "cpu-check"
  {
    assert "/sensu.io/checks/cpu-check" == "/sensu.io/checks" + "/" + "cpu-check";
    LastSegmentOfPath("/sensu.io/checks", "cpu-check");
  }
}

=== FILE: outcomes.dfy ===
/** Optional values and fallible results, standing in for Go's `(T, error)` returns and nil values. */
module Outcomes {

  datatype Option<+T> = None | Some(value: T)

  datatype Result<+T, +E> = Ok(value: T) | Err(error: E)
}

=== FILE: reconcile.dfy ===
/**
  The checker as it is meant to work: an upsert cancels the timer
  registered for the name and installs the new one, and a delete cancels
  the timer as it removes the entry. Cancelling and unregistering happen in
  one step, so each registered name has exactly one running timer and no
  other timer runs. A check that cannot be scheduled (its event does not
  serialise, or its interval gives a zero tick modulus) is never started,
  so no running timer's loop divides by zero and nothing panics.

  This is the corrected counterpart of `Backend.ApplyPut`,
  `Backend.ApplyDelete`, `Backend.Watch` and `Backend.StartChecker`. It
  reuses their state and their scheduler construction. The corrected start
  checks the whole snapshot before starting anything, so a failed start
  leaves nothing running, and a repeated name replaces its earlier timer.
 */
module Reconcile {
  import opened GoInts
  import opened Outcomes
  import opened Scheduler
  import opened Backend
  import GoStrings
  import Splay

  /** No running timer's loop divides by zero: every running scheduler has a nonzero tick modulus. */
  predicate Ticking(c: Checker)
  {
    forall id :: id in c.running && id in c.heap ==> Splay.TickModulus(c.heap[id].interval) != 0
  }

  /** Every name other than `name` keeps its entry, and that entry keeps its scheduler. */
  ghost predicate Unaffected(c: Checker, r: Checker, name: string)
    requires WellFormed(c) && WellFormed(r)
  {
    forall n :: n != name ==>
      && (n in r.registry <==> n in c.registry)
      && (n in c.registry ==> r.registry[n] == c.registry[n] && r.heap[r.registry[n]] == c.heap[c.registry[n]])
  }

  /** In a consistent state, only `name` is registered under its id. */
  lemma RegisteredOnce(c: Checker, name: string)
    requires Consistent(c) && name in c.registry
    ensures forall n :: n in c.registry && n != name ==> c.registry[n] != c.registry[name]
  {
    forall n | n in c.registry && n != name
      ensures c.registry[n] != c.registry[name]
    {
      assert c.heap[c.registry[n]].hashKey == n;
    }
  }

  /** The registry without `name`, whose id nothing else maps to, has lost exactly that id from its values. */
  lemma ValuesWithout(c: Checker, name: string)
    requires Consistent(c) && name in c.registry
    ensures (c.registry - {name}).Values == c.running - {c.registry[name]}
  {
    RegisteredOnce(c, name);
    var m := c.registry - {name};
    forall id | id in c.running - {c.registry[name]}
      ensures id in m.Values
    {
      var n :| n in c.registry && c.registry[n] == id;
      assert m[n] == id;
    }
  }

  /**
    Unschedule one name: its scheduler is stopped and its entry removed in a
    single step. The scheduler is running, so the stop cannot panic.
   */
  function Cancel(c: Checker, name: string): (r: Checker)
    requires Consistent(c) && name in c.registry
    ensures Consistent(r)
    ensures r.registry == c.registry - {name}
    ensures r.running == c.running - {c.registry[name]}
    ensures c.registry[name] in r.heap && r.heap[c.registry[name]].stop == ClosedChannel
    ensures forall id :: id in r.running ==> r.heap[id].hashKey != name
    ensures Unaffected(c, r, name)
    ensures Ticking(c) ==> Ticking(r)
    ensures r.next == c.next
  {
    var id := c.registry[name];
    ValuesWithout(c, name);
    RegisteredOnce(c, name);
    var stopped := Stop(c.heap[id]).value;
    Checker(c.registry - {name}, c.heap[id := stopped], c.running - {id}, c.next)
  }

  /**
    Build and start the scheduler of a check whose name is not registered,
    and register it. A check that cannot be scheduled is left unscheduled:
    a serialisation error or a zero tick modulus is only logged, and
    nothing is started.
   */
  function Install(c: Checker, check: Check, env: Env): (r: Checker)
    requires Consistent(c) && check.name !in c.registry
    ensures Consistent(r)
    ensures Schedulable(check, env) ==>
              && check.name in r.registry
              && r.registry[check.name] == c.next
              && r.heap[c.next] == Scheduled(check, env)
              && r.running == c.running + {c.next}
    ensures !Schedulable(check, env) ==> r == c
    ensures Unaffected(c, r, check.name)
    ensures Ticking(c) ==> Ticking(r)
  {
    match NewSchedulerFromCheck(check, env.marshal)
    case Err(_) => c
    case Ok(s) =>
      if Splay.TickModulus(s.interval) == 0 then c
      else
        Registers(c, check, s, env);
        FirstStep(c, check, s, env)
  }

  /** Registering a freshly started scheduler under an unregistered name keeps the state consistent. */
  lemma Registers(c: Checker, check: Check, s: MessageScheduler, env: Env)
    requires Consistent(c) && check.name !in c.registry
    requires NewSchedulerFromCheck(check, env.marshal) == Ok(s)
    ensures Consistent(FirstStep(c, check, s, env))
    ensures Unaffected(c, FirstStep(c, check, s, env), check.name)
  {
    var r := FirstStep(c, check, s, env);
    forall id | id in c.registry.Values
      ensures id in r.registry.Values
    {
      var n :| n in c.registry && c.registry[n] == id;
      assert r.registry[n] == id;
    }
    assert r.registry[check.name] == c.next;
    assert r.registry.Values == c.registry.Values + {c.next};
    forall n | n in c.registry
      ensures c.registry[n] in c.heap && c.registry[n] != c.next
    {
    }
  }

  /**
    Schedule `check` under its name, in place of whatever was registered for
    it: the registered scheduler, if any, is cancelled, then the new one is
    built, started and registered, or the name is left unscheduled when the
    check cannot be scheduled.
   */
  function Replace(c: Checker, check: Check, env: Env): (r: Checker)
    requires Consistent(c)
    ensures Consistent(r)
    ensures Schedulable(check, env) <==> check.name in r.registry
    ensures Schedulable(check, env) ==> r.heap[r.registry[check.name]] == Scheduled(check, env)
    ensures check.name in c.registry ==> c.registry[check.name] !in r.running
    ensures Unaffected(c, r, check.name)
    ensures Ticking(c) ==> Ticking(r)
  {
    if check.name in c.registry then
      var c1 := Cancel(c, check.name);
      var r := Install(c1, check, env);
      assert c.registry[check.name] != c1.next;
      r
    else Install(c, check, env)
  }

  /** The corrected PUT branch: an undecodable value changes nothing, a decoded check replaces its name's timer. */
  function Upsert(c: Checker, value: seq<byte>, env: Env): (r: Checker)
    requires Consistent(c)
    ensures Consistent(r)
    ensures env.unmarshal(value).None? ==> r == c
    ensures env.unmarshal(value).Some? ==>
              var check := env.unmarshal(value).value;
              && (Schedulable(check, env) <==> check.name in r.registry)
              && (Schedulable(check, env) ==> r.heap[r.registry[check.name]] == Scheduled(check, env))
              && (check.name in c.registry ==> c.registry[check.name] !in r.running)
              && Unaffected(c, r, check.name)
    ensures Ticking(c) ==> Ticking(r)
  {
    match env.unmarshal(value)
    case None => c
    case Some(check) => Replace(c, check, env)
  }

  /** The corrected DELETE branch: the named scheduler is cancelled as its entry is removed. */
  function Remove(c: Checker, key: string): (r: Checker)
    requires Consistent(c)
    ensures Consistent(r)
    ensures GoStrings.LastSegment(key) !in r.registry
    ensures forall id :: id in r.running ==> r.heap[id].hashKey != GoStrings.LastSegment(key)
    ensures Unaffected(c, r, GoStrings.LastSegment(key))
    ensures Ticking(c) ==> Ticking(r)
  {
    var name := GoStrings.LastSegment(key);
    if name in c.registry then Cancel(c, name)
    else
      OneTimerPerName(c, name);
      c
  }

  /** One corrected watch event: a PUT is an upsert, a DELETE a removal. */
  function Apply(c: Checker, ev: Event, env: Env): (r: Checker)
    requires Consistent(c)
    ensures Consistent(r)
    ensures Ticking(c) ==> Ticking(r)
  {
    match ev
    case Put(_, value) => Upsert(c, value, env)
    case Delete(key) => Remove(c, key)
  }

  /**
    The corrected watcher loop over a sequence of events, in arrival order.
    It keeps consistency, and it never starts a timer whose loop divides by
    zero, so from a state where no running loop does, none ever does: no
    step panics, in the watcher or in a timer.
   */
  function Run(c: Checker, events: seq<Event>, env: Env): (r: Checker)
    requires Consistent(c)
    ensures Consistent(r)
    ensures Ticking(c) ==> Ticking(r)
    decreases |events|
  {
    if |events| == 0 then c else Run(Apply(c, events[0], env), events[1..], env)
  }

  // ---------------------------------------------------------------------------
  // The registry follows the store

  /**
    The timers follow `view`: the registered names are exactly its names,
    each definition in it is schedulable, and each name's registered (and,
    by consistency, only) running timer is built from its definition.
   */
  predicate Tracks(c: Checker, view: map<string, Check>, env: Env)
  {
    && Consistent(c)
    && c.registry.Keys == view.Keys
    && forall n :: n in view ==> Schedulable(view[n], env) && c.heap[c.registry[n]] == Scheduled(view[n], env)
  }

  /** Timers that follow schedulable definitions have nonzero tick moduli. */
  lemma TracksTicking(c: Checker, view: map<string, Check>, env: Env)
    requires Tracks(c, view, env)
    ensures Ticking(c)
  {
    forall id | id in c.running && id in c.heap
      ensures Splay.TickModulus(c.heap[id].interval) != 0
    {
      var n :| n in c.registry && c.registry[n] == id;
      assert c.heap[id] == Scheduled(view[n], env);
    }
  }

  /**
    The definitions the timers should follow after one event, keyed by
    check name. A PUT whose value decodes puts its check in force under the
    check's name when the check is schedulable, and takes the name out of
    force when it is not; a PUT whose value does not decode changes nothing,
    although the store now holds that value. A DELETE takes out the name its
    key ends with, which is the name a PUT under that key stored when keys
    end with their check's name.
   */
  function Desired(view: map<string, Check>, ev: Event, env: Env): (v: map<string, Check>)
  {
    match ev
    case Put(_, value) =>
      (match env.unmarshal(value)
       case None => view
       case Some(check) => Defined(view, check, env))
    case Delete(key) => view - {GoStrings.LastSegment(key)}
  }

  /** The definitions after `check` is stored: it is in force under its name if it can be scheduled, and otherwise nothing is. */
  function Defined(view: map<string, Check>, check: Check, env: Env): (v: map<string, Check>)
  {
    if Schedulable(check, env) then view[check.name := check] else view - {check.name}
  }

  /** The definitions in force after a sequence of events, in arrival order. */
  function Replay(view: map<string, Check>, events: seq<Event>, env: Env): (v: map<string, Check>)
    decreases |events|
  {
    if |events| == 0 then view else Replay(Desired(view, events[0], env), events[1..], env)
  }

  /**
    A step that changes only `name`'s entry keeps the timers in line with
    definitions that change only at `name`, when the entry for `name` is
    right afterwards.
   */
  lemma TracksUpdate(c: Checker, r: Checker, view: map<string, Check>, v: map<string, Check>, name: string, env: Env)
    requires Tracks(c, view, env) && Consistent(r) && Unaffected(c, r, name)
    requires forall n :: n != name ==> (n in v <==> n in view)
    requires forall n :: n in v && n != name ==> v[n] == view[n]
    requires name in r.registry <==> name in v
    requires name in v ==> Schedulable(v[name], env) && r.heap[r.registry[name]] == Scheduled(v[name], env)
    ensures Tracks(r, v, env)
  {
    assert r.registry.Keys == v.Keys by {
      forall n | n in r.registry ensures n in v { }
      forall n | n in v ensures n in r.registry { }
    }
    forall n | n in v
      ensures Schedulable(v[n], env) && r.heap[r.registry[n]] == Scheduled(v[n], env)
    {
      if n != name {
        UnchangedEntry(c, r, view, n, name, env);
      }
    }
  }

  /** An entry the step leaves alone stays in line with its unchanged definition. */
  lemma UnchangedEntry(c: Checker, r: Checker, view: map<string, Check>, n: string, name: string, env: Env)
    requires Tracks(c, view, env) && WellFormed(r) && Unaffected(c, r, name)
    requires n in view && n != name
    ensures n in r.registry && Schedulable(view[n], env) && r.heap[r.registry[n]] == Scheduled(view[n], env)
  {
    assert n in c.registry;
  }

  /** Replacing one check's timer keeps the timers in line with the definitions. */
  lemma ReplaceTracks(c: Checker, view: map<string, Check>, check: Check, env: Env)
    requires Tracks(c, view, env)
    ensures Tracks(Replace(c, check, env), Defined(view, check, env), env)
  {
    TracksUpdate(c, Replace(c, check, env), view, Defined(view, check, env), check.name, env);
  }

  /** A corrected PUT keeps the timers in line with the definitions. */
  lemma UpsertTracks(c: Checker, view: map<string, Check>, key: string, value: seq<byte>, env: Env)
    requires Tracks(c, view, env)
    ensures Tracks(Upsert(c, value, env), Desired(view, Put(key, value), env), env)
  {
    if env.unmarshal(value).Some? {
      ReplaceTracks(c, view, env.unmarshal(value).value, env);
    }
  }

  /** A corrected DELETE keeps the timers in line with the definitions. */
  lemma RemoveTracks(c: Checker, view: map<string, Check>, key: string, env: Env)
    requires Tracks(c, view, env)
    ensures Tracks(Remove(c, key), Desired(view, Delete(key), env), env)
  {
    var name := GoStrings.LastSegment(key);
    TracksUpdate(c, Remove(c, key), view, Desired(view, Delete(key), env), name, env);
  }

  /** One corrected step keeps the timers in line with the definitions. */
  lemma StepTracks(c: Checker, view: map<string, Check>, ev: Event, env: Env)
    requires Tracks(c, view, env)
    ensures Tracks(Apply(c, ev, env), Desired(view, ev, env), env)
  {
    match ev
    case Put(key, value) => UpsertTracks(c, view, key, value, env);
    case Delete(key) => RemoveTracks(c, view, key, env);
  }

  /** The corrected loop keeps the timers in line with the definitions the events put in force. */
  lemma {:induction false} RunTracks(c: Checker, view: map<string, Check>, events: seq<Event>, env: Env)
    requires Tracks(c, view, env)
    ensures Tracks(Run(c, events, env), Replay(view, events, env), env)
    decreases |events|
  {
    if |events| > 0 {
      StepTracks(c, view, events[0], env);
      RunTracks(Apply(c, events[0], env), Desired(view, events[0], env), events[1..], env);
    }
  }

  /** The snapshot as a map from name to check; its names are distinct. */
  function Snapshot(checks: seq<Check>): (view: map<string, Check>)
    requires DistinctNames(checks)
    ensures view.Keys == Names(checks)
    ensures forall k :: 0 <= k < |checks| ==> view[checks[k].name] == checks[k]
  {
    map k | 0 <= k < |checks| :: checks[k].name := checks[k]
  }

  /** A successful bootstrap of distinct names leaves one running timer per check, following the snapshot. */
  lemma BootstrapTracks(checks: seq<Check>, env: Env)
    requires DistinctNames(checks)
    requires StartChecker(true, true, Ok(checks), env).Booted?
    ensures Tracks(StartChecker(true, true, Ok(checks), env).checker, Snapshot(checks), env)
  {
    var c := StartChecker(true, true, Ok(checks), env).checker;
    StartCheckerBootstrap(checks, env);
    BootstrapConsistent(checks, env);
    var view := Snapshot(checks);
    forall n | n in view
      ensures Schedulable(view[n], env) && c.heap[c.registry[n]] == Scheduled(view[n], env)
    {
      assert IsLastIndex(checks, n, c.registry[n]);
    }
  }

  // ---------------------------------------------------------------------------
  // The corrected bootstrap

  /** Why the corrected start refuses a check it cannot schedule. */
  function Refusal(check: Check, env: Env): (f: StartFailure)
  {
    if env.marshal(check).Err? then SchedulerFailed(env.marshal(check).error) else ZeroInterval(check.name)
  }

  /** The refusal of the first check that cannot be scheduled, if there is one. */
  function FirstRefusal(checks: seq<Check>, env: Env): (f: Option<StartFailure>)
    ensures f.None? <==> AllSchedulable(checks, env)
    ensures f.Some? ==>
              exists k :: 0 <= k < |checks| && !Schedulable(checks[k], env) && AllSchedulable(checks[..k], env)
                          && f.value == Refusal(checks[k], env)
    decreases |checks|
  {
    if |checks| == 0 then None
    else if !Schedulable(checks[0], env) then
      assert AllSchedulable(checks[..0], env);
      Some(Refusal(checks[0], env))
    else
      var f := FirstRefusal(checks[1..], env);
      if f.Some? then
        var k :| 0 <= k < |checks| - 1 && !Schedulable(checks[1..][k], env) && AllSchedulable(checks[1..][..k], env)
                 && f.value == Refusal(checks[1..][k], env);
        assert checks[..k + 1] == [checks[0]] + checks[1..][..k];
        f
      else
        assert forall k :: 0 < k < |checks| ==> checks[k] == checks[1..][k - 1];
        f
  }

  /** Schedule the checks in snapshot order, each in place of any earlier one of the same name. */
  function LoadFrom(c: Checker, checks: seq<Check>, env: Env): (r: Checker)
    requires Consistent(c)
    ensures Consistent(r)
    decreases |checks|
  {
    if |checks| == 0 then c else LoadFrom(Replace(c, checks[0], env), checks[1..], env)
  }

  /** The definitions after storing the checks in snapshot order: the later of two checks with one name wins. */
  function Latest(view: map<string, Check>, checks: seq<Check>, env: Env): (v: map<string, Check>)
    decreases |checks|
  {
    if |checks| == 0 then view else Latest(Defined(view, checks[0], env), checks[1..], env)
  }

  /** Loading the snapshot keeps the timers in line with the definitions it stores. */
  lemma {:induction false} LoadTracks(c: Checker, view: map<string, Check>, checks: seq<Check>, env: Env)
    requires Tracks(c, view, env)
    ensures Tracks(LoadFrom(c, checks, env), Latest(view, checks, env), env)
    decreases |checks|
  {
    if |checks| > 0 {
      ReplaceTracks(c, view, checks[0], env);
      LoadTracks(Replace(c, checks[0], env), Defined(view, checks[0], env), checks[1..], env);
    }
  }

  /**
    For a schedulable snapshot, the definitions it stores are its names,
    each bound to its last occurrence; names it lacks keep their definition.
   */
  lemma {:induction false} LatestLast(view: map<string, Check>, checks: seq<Check>, env: Env)
    requires AllSchedulable(checks, env)
    ensures Latest(view, checks, env).Keys == view.Keys + Names(checks)
    ensures forall n, k :: IsLastIndex(checks, n, k) ==> Latest(view, checks, env)[n] == checks[k]
    ensures forall n :: n in view && n !in Names(checks) ==> Latest(view, checks, env)[n] == view[n]
    decreases |checks|
  {
    if |checks| > 0 {
      var tail := checks[1..];
      var v := Defined(view, checks[0], env);
      assert forall k :: 0 <= k < |tail| ==> tail[k] == checks[k + 1];
      LatestLast(v, tail, env);
      NamesCons(checks);
      forall n, k | IsLastIndex(checks, n, k)
        ensures Latest(view, checks, env)[n] == checks[k]
      {
        LastIndexTail(checks, n, k);
      }
    }
  }

  /** The last occurrence in the snapshot is the last in its tail, or the head when the tail lacks the name. */
  lemma LastIndexTail(checks: seq<Check>, n: string, k: int)
    requires IsLastIndex(checks, n, k)
    ensures k > 0 ==> IsLastIndex(checks[1..], n, k - 1)
    ensures k == 0 ==> n !in Names(checks[1..])
  {
    var tail := checks[1..];
    if k == 0 {
      forall j | 0 <= j < |tail|
        ensures tail[j].name != n
      {
        assert tail[j] == checks[j + 1];
      }
    } else {
      assert tail[k - 1] == checks[k];
      forall j | k - 1 < j < |tail|
        ensures tail[j].name != n
      {
        assert tail[j] == checks[j + 1];
      }
    }
  }

  /**
    `Checker.Start` as it is meant to work: the same guards in the same
    order, then the snapshot is checked before anything starts. A check that
    cannot be scheduled fails the start, with nothing running; otherwise
    every check is scheduled, a repeated name replacing the earlier timer.
    It never crashes.
   */
  function StartUp(hasClient: bool, hasStore: bool, snapshot: Result<seq<Check>, string>, env: Env): (r: Boot)
    ensures !hasClient ==> r == BootFailed(NoEtcdClient, Empty)
    ensures hasClient && !hasStore ==> r == BootFailed(NoStore, Empty)
    ensures hasClient && hasStore && snapshot.Err? ==> r == BootFailed(StoreFailed(snapshot.error), Empty)
    ensures r.Booted? <==> hasClient && hasStore && snapshot.Ok? && AllSchedulable(snapshot.value, env)
    ensures !r.Crashed?
    ensures r.BootFailed? ==> r.leftover == Empty
    ensures r.Booted? ==> Tracks(r.checker, Latest(map[], snapshot.value, env), env)
  {
    if !hasClient then BootFailed(NoEtcdClient, Empty)
    else if !hasStore then BootFailed(NoStore, Empty)
    else match snapshot
      case Err(e) => BootFailed(StoreFailed(e), Empty)
      case Ok(checks) =>
        match FirstRefusal(checks, env)
        case Some(f) => BootFailed(f, Empty)
        case None =>
          LoadTracks(Empty, map[], checks, env);
          Booted(LoadFrom(Empty, checks, env))
  }

  /**
    The corrected start fails on the same check as `Checker.Start`, the
    first that cannot be scheduled: with the same error when it cannot be
    serialised, and with `ZeroInterval` where the code's timer loop would
    divide by zero. Nothing is left running.
   */
  lemma StartUpFailure(checks: seq<Check>, env: Env, k: nat)
    requires k < |checks| && !Schedulable(checks[k], env)
    requires forall j :: 0 <= j < k ==> Schedulable(checks[j], env)
    ensures env.marshal(checks[k]).Err? ==>
              StartUp(true, true, Ok(checks), env) == BootFailed(SchedulerFailed(env.marshal(checks[k]).error), Empty)
    ensures env.marshal(checks[k]).Ok? ==>
              StartUp(true, true, Ok(checks), env) == BootFailed(ZeroInterval(checks[k].name), Empty)
  {
    var f := FirstRefusal(checks, env);
    var i :| 0 <= i < |checks| && !Schedulable(checks[i], env) && AllSchedulable(checks[..i], env)
             && f.value == Refusal(checks[i], env);
    assert i == k;
  }

  /** With distinct, schedulable names, the corrected start does exactly what `Checker.Start` does. */
  lemma StartUpAgrees(checks: seq<Check>, env: Env)
    requires DistinctNames(checks) && AllSchedulable(checks, env)
    ensures StartUp(true, true, Ok(checks), env) == StartChecker(true, true, Ok(checks), env)
  {
    LoadIsPopulate(Empty, checks, env);
  }

  /** Over names not yet registered and pairwise distinct, loading is the as-written loop. */
  lemma {:induction false} LoadIsPopulate(c: Checker, checks: seq<Check>, env: Env)
    requires Consistent(c) && DistinctNames(checks) && AllSchedulable(checks, env)
    requires forall k :: 0 <= k < |checks| ==> checks[k].name !in c.registry
    ensures Populate(c, checks, env) == Booted(LoadFrom(c, checks, env))
    decreases |checks|
  {
    if |checks| > 0 {
      var tail := checks[1..];
      assert Schedulable(checks[0], env);
      var s := NewSchedulerFromCheck(checks[0], env.marshal).value;
      assert Replace(c, checks[0], env) == FirstStep(c, checks[0], s, env);
      assert forall k :: 0 <= k < |tail| ==> tail[k] == checks[k + 1];
      LoadIsPopulate(Replace(c, checks[0], env), tail, env);
    }
  }

  /**
    The corrected checker from start to any point of its watch. A failed
    start leaves nothing running. After a successful start and any events,
    each name with a schedulable definition in force has exactly one running
    timer, built from that definition, and no other timer runs; a repeated
    name in the snapshot counts once, with its last definition. No running
    timer's loop divides by zero.
   */
  lemma Serve(hasClient: bool, hasStore: bool, snapshot: Result<seq<Check>, string>, events: seq<Event>, env: Env)
    ensures var b := StartUp(hasClient, hasStore, snapshot, env);
            b.BootFailed? ==> b.leftover.running == {}
    ensures var b := StartUp(hasClient, hasStore, snapshot, env);
            b.Booted? ==>
              var r := Run(b.checker, events, env);
              && Tracks(r, Replay(Latest(map[], snapshot.value, env), events, env), env)
              && Ticking(r)
              && forall n :: n in r.registry ==>
                   forall id :: id in r.running ==> (r.heap[id].hashKey == n <==> id == r.registry[n])
  {
    var b := StartUp(hasClient, hasStore, snapshot, env);
    if b.Booted? {
      RunTracks(b.checker, Latest(map[], snapshot.value, env), events, env);
      var r := Run(b.checker, events, env);
      TracksTicking(r, Replay(Latest(map[], snapshot.value, env), events, env), env);
      forall n | n in r.registry
        ensures forall id :: id in r.running ==> (r.heap[id].hashKey == n <==> id == r.registry[n])
      {
        OneTimerPerName(r, n);
      }
    }
  }
}

=== FILE: scheduler.dfy ===
/**
  `MessageScheduler`, the per-check timer of the backend, with its goroutine
  taken apart into explicit steps: `Start` (splay computation and channel
  creation), `Tick` (one firing of the timer), `Stop` (closing the stop
  channel) and `NewSchedulerFromCheck` (construction from a check).

  MD5 and JSON are outside the model: `Start` receives the digest of the
  hash key, and construction receives the serialiser of the event envelope
  as a function that may fail.
 */
module Scheduler {
  import opened GoInts
  import opened Outcomes
  import Varint

  /** An MD5 digest (RFC 1321): sixteen bytes. */
  type Digest = d: seq<byte> | |d| == 16 witness seq(16, _ => 0)

  /** The splay value is read from this many leading bytes of the digest. */
  const SplayBytes: nat := 7

  /**
    `types.Check`: the three fields the scheduler reads, and `rest`, every
    other field (command, handlers and so on) in whatever form the JSON
    codec gives it. Only serialisation reads `rest`, so two checks that
    differ only there get the same timer but different payloads.
   */
  datatype Check = Check(name: string, interval: i64, subscriptions: seq<string>, rest: seq<byte>)

  /** The scheduler's `stop` channel: nil until `Start`, open while its loop runs, then closed. */
  datatype StopChannel = NilChannel | OpenChannel | ClosedChannel

  /** The message bus is shared by every scheduler and is left out of the value. */
  datatype MessageScheduler = MessageScheduler(
    hashKey: string,
    interval: i64,
    msgBytes: seq<byte>,
    topics: seq<string>,
    stop: StopChannel)

  /** The one error `Start` can return: "check hashing failed". */
  datatype StartError = CheckHashingFailed

  /** What `Start` leaves: the scheduler, and either the splay value its loop uses or the error it returns. */
  datatype Launch = Launch(sched: MessageScheduler, splay: Result<u64, StartError>)

  /** `binary.Uvarint(sum[0:7])`. */
  function SplayHash(digest: Digest): (h: Varint.Decoded)
    ensures h.n >= 0 && h.value < Pow2(49)
    ensures h.n == 0 <==> forall j :: 0 <= j < SplayBytes ==> Varint.Continues(digest[j])
  {
    Varint.SevenBytes(digest[..SplayBytes]);
    Varint.Uvarint(digest[..SplayBytes])
  }

  /**
    `Start`: makes a fresh stop channel, then decodes the splay value from the
    digest of the hash key; only a negative byte count is rejected. Seven
    bytes never overflow, so `Start` never fails, and a digest whose seven
    leading bytes all carry the continuation bit gives splay 0 without error.
   */
  function Start(s: MessageScheduler, digest: Digest): (r: Launch)
    ensures r.sched == s.(stop := OpenChannel)
    ensures r.splay.Ok?
    ensures r.splay.value < Pow2(49)
    ensures (forall j :: 0 <= j < SplayBytes ==> Varint.Continues(digest[j])) ==> r.splay.value == 0
  {
    var h := SplayHash(digest);
    Varint.SevenBytes(digest[..SplayBytes]);
    var started := s.(stop := OpenChannel);
    if h.n < 0 then Launch(started, Err(CheckHashingFailed))
    else Launch(started, Ok(h.value))
  }

  /**
    `Stop`: a nil channel (never started) is left alone, an open one is
    closed, and closing a closed channel panics, which is `None` here.
   */
  function Stop(s: MessageScheduler): (r: Option<MessageScheduler>)
    ensures r.None? <==> s.stop == ClosedChannel
    ensures s.stop == NilChannel ==> r == Some(s)
    ensures s.stop == OpenChannel ==> r == Some(s.(stop := ClosedChannel))
  {
    match s.stop
    case NilChannel => Some(s)
    case OpenChannel => Some(s.(stop := ClosedChannel))
    case ClosedChannel => None
  }

  /** Never started, then running, then stopped; a second stop after the same start panics. */
  lemma StopLifecycle(s: MessageScheduler, digest: Digest)
    ensures Stop(s.(stop := NilChannel)) == Some(s.(stop := NilChannel))
    ensures var running := Start(s, digest).sched;
            && running.stop == OpenChannel
            && Stop(running) == Some(s.(stop := ClosedChannel))
            && Stop(Stop(running).value) == None
  {
  }

  /** One publish attempt of a tick, with the error the bus returned, if any. */
  datatype Publication = Publication(topic: string, payload: seq<byte>, err: Option<string>)

  function Topics(log: seq<Publication>): (topics: seq<string>)
    ensures |topics| == |log|
    ensures forall k :: 0 <= k < |log| ==> topics[k] == log[k].topic
  {
    if |log| == 0 then [] else [log[0].topic] + Topics(log[1..])
  }

  /**
    One tick of the timer: the cached payload is published to every topic,
    in order, once each; a failed publish is only logged, and the loop goes
    on with the next topic.
   */
  method Tick(s: MessageScheduler, publish: (string, seq<byte>) -> Option<string>)
    returns (log: seq<Publication>)
    ensures Topics(log) == s.topics
    ensures forall k :: 0 <= k < |log| ==> log[k].payload == s.msgBytes
    ensures forall k :: 0 <= k < |log| ==> log[k].err == publish(log[k].topic, s.msgBytes)
  {
    log := [];
    var i := 0;
    while i < |s.topics|
      invariant 0 <= i <= |s.topics|
      invariant Topics(log) == s.topics[..i]
      invariant forall k :: 0 <= k < |log| ==> log[k].payload == s.msgBytes
      invariant forall k :: 0 <= k < |log| ==> log[k].err == publish(log[k].topic, s.msgBytes)
    {
      var t := s.topics[i];
      var err := publish(t, s.msgBytes);
      log := log + [Publication(t, s.msgBytes, err)];
      i := i + 1;
    }
  }

  /**
    `newSchedulerFromCheck`: the hash key is the check name, the topics are
    its subscriptions, the interval is copied, and the payload is the
    serialised event envelope around the check. The only failure is a
    serialisation error, which is returned instead of a scheduler.
   */
  function NewSchedulerFromCheck(check: Check, marshal: Check -> Result<seq<byte>, string>)
    : (r: Result<MessageScheduler, string>)
    ensures r.Err? <==> marshal(check).Err?
    ensures r.Err? ==> r.error == marshal(check).error
    ensures r.Ok? ==> && r.value.hashKey == check.name
                      && r.value.topics == check.subscriptions
                      && r.value.interval == check.interval
                      && r.value.msgBytes == marshal(check).value
                      && r.value.stop == NilChannel
  {
    match marshal(check)
    case Err(e) => Err(e)
    case Ok(bytes) => Ok(MessageScheduler(check.name, check.interval, bytes, check.subscriptions, NilChannel))
  }
}

=== FILE: splay.dfy ===
/**
  The splay arithmetic of `MessageScheduler.Start`: the delay before a check's
  first tick, computed in wrapping `uint64` arithmetic from the splay value,
  the wall clock and the check interval, and the Go durations the timer is
  armed with.

  The units are mixed exactly as in the scheduler: the clock is read in
  nanoseconds, the modulus is the interval in milliseconds, and the result is
  used as a number of milliseconds.
 */
module Splay {
  import opened GoInts
  import opened Outcomes

  const MillisPerSecond: nat := 1000
  const NanosPerMilli: nat := 1_000_000
  const NanosPerSecond: nat := 1_000_000_000

  /** The longest interval, in seconds, whose period in nanoseconds fits an `int64`. */
  const MaxPeriodSeconds: nat := 9_223_372_036

  /** `uint64(s.Interval) * uint64(1000)`: the interval in milliseconds, wrapped to 64 bits. */
  function TickModulus(interval: i64): (m: u64)
    ensures 0 <= interval && interval * MillisPerSecond < TWO_64 ==> m == interval * MillisPerSecond
  {
    U64(U64(interval) * MillisPerSecond)
  }

  /**
    `(splayHash - now) % (uint64(s.Interval) * uint64(1000))` with `now` the
    `uint64` conversion of `time.Now().UnixNano()`. A zero modulus is an
    integer division by zero. The panic is not recovered, so it ends the
    whole backend process, not only the scheduler's goroutine: `None`.
   */
  function FirstDelay(splay: u64, unixNanos: i64, interval: i64): (d: Option<u64>)
    ensures d.None? <==> TickModulus(interval) == 0
    ensures d.Some? ==> d.value < TickModulus(interval)
  {
    var m := TickModulus(interval);
    if m == 0 then None else Some(U64(splay - U64(unixNanos)) % m)
  }

  /** `time.Duration(nextExecution) * time.Millisecond`: the first timer, in nanoseconds. */
  function FirstTimerNanos(delay: u64): (t: i64)
    ensures delay * NanosPerMilli < TWO_63 ==> t == delay * NanosPerMilli
  {
    I64(I64(delay) * NanosPerMilli)
  }

  /** `time.Second * time.Duration(s.Interval)`: the period the timer is reset to, in nanoseconds. */
  function PeriodNanos(interval: i64): (p: i64)
    ensures -TWO_63 <= interval * NanosPerSecond < TWO_63 ==> p == interval * NanosPerSecond
  {
    I64(NanosPerSecond * interval)
  }

  /** Euclidean division is unique: a quotient and a remainder in range are `/` and `%`. */
  lemma DivModUnique(a: int, m: int, q: int, r: int)
    requires m > 0 && 0 <= r < m
    requires a == m * q + r
    ensures a / m == q && a % m == r
  {
    var q0 := a / m;
    var r0 := a % m;
    assert m * (q - q0) == r0 - r;
    NonzeroMultiple(m, q - q0);
  }

  /** A non-zero multiple of `m` is at least `m` away from zero. */
  lemma NonzeroMultiple(m: int, d: int)
    ensures m >= 0 && d != 0 ==> m * d >= m || m * d <= -m
  {
    if m >= 0 && d >= 1 {
      assert m * d >= m * 1;
    } else if m >= 0 && d <= -1 {
      assert m * -d >= m * 1;
    }
  }

  lemma ModAddMultiple(a: int, m: int, k: int)
    requires m > 0
    ensures (a + m * k) % m == a % m
  {
    var q := a / m;
    assert a + m * k == m * (q + k) + a % m;
    DivModUnique(a + m * k, m, q + k, a % m);
  }

  lemma ModOfSumWithMod(a: nat, b: nat, m: nat)
    requires m > 0
    ensures (a + b % m) % m == (a + b) % m
  {
    assert b == m * (b / m) + b % m;
    ModAddMultiple(a + b % m, m, b / m);
  }

  /** The wrapping `uint64` subtraction is the exact difference, plus 2^64 when it goes below zero. */
  lemma WrapSub(a: u64, b: u64)
    ensures U64(a - b) == a - b + (if a < b then TWO_64 else 0)
  {
  }

  /**
    A congruence about the numbers of backend/checker.go:45, in their mixed units: the
    clock reading (nanoseconds) plus the delay (milliseconds) is congruent,
    modulo the millisecond-scaled interval, to the splay value, shifted by
    2^64 when the subtraction wrapped. It is a fact about the arithmetic, not
    the phase of the first tick: the timer fires `delay * 10^6` nanoseconds
    after the clock reading (see `FirstTickDrifts`).
   */
  lemma FirstTickPhase(splay: u64, unixNanos: i64, interval: i64)
    requires TickModulus(interval) != 0
    ensures var now := U64(unixNanos);
            var m := TickModulus(interval);
            (now + FirstDelay(splay, unixNanos, interval).value) % m
              == (splay + (if splay < now then TWO_64 else 0)) % m
  {
    var now := U64(unixNanos);
    var w := U64(splay - now);
    WrapSub(splay, now);
    ShiftedPhase(splay, now, w, TickModulus(interval), if splay < now then TWO_64 else 0);
  }

  lemma ShiftedPhase(splay: nat, now: nat, w: nat, m: nat, shift: nat)
    requires m > 0 && w == splay - now + shift
    ensures (now + w % m) % m == (splay + shift) % m
  {
    ModOfSumWithMod(now, w, m);
  }

  /**
    The instant of the first tick, in nanoseconds since the epoch, as the
    scheduler arms its timer: the clock reading plus the delay converted from
    milliseconds. It is that instant for a clock reading at or after the
    epoch (`U64` leaves it unchanged) and an interval in the range of
    `FirstTickWithinPeriod` (the timer conversion does not wrap); for a
    reading before the epoch it adds 2^64, and a timer whose conversion
    wraps negative fires at once.
   */
  function FirstTickNanos(splay: u64, unixNanos: i64, interval: i64): (t: Option<int>)
    ensures t.Some? <==> TickModulus(interval) != 0
  {
    match FirstDelay(splay, unixNanos, interval)
    case None => None
    case Some(d) => Some(U64(unixNanos) + FirstTimerNanos(d))
  }

  /**
    As written, the first tick does not land on a phase fixed by the splay:
    with splay 0 and a one-second interval, clock readings one nanosecond
    apart put the first tick at different positions within the period.
   */
  lemma FirstTickDrifts()
    ensures FirstDelay(0, 1, 1) == Some(615)
    ensures FirstDelay(0, 2, 1) == Some(614)
    ensures FirstTickNanos(0, 1, 1).value % PeriodNanos(1) == 615_000_001
    ensures FirstTickNanos(0, 2, 1).value % PeriodNanos(1) == 614_000_002
  {
    assert TickModulus(1) == 1000;
    assert U64(0 - 1) == TWO_64 - 1;
    assert U64(0 - 2) == TWO_64 - 2;
    assert FirstTimerNanos(615) == 615_000_000;
    assert FirstTimerNanos(614) == 614_000_000;
  }

  /**
    The delay with the units matched: the clock is read in milliseconds and
    the difference is reduced modulo the interval in milliseconds without
    wrapping. The first tick, in whole milliseconds, then lands on the
    splay's phase of the interval, whatever the clock reads.
   */
  function SplayDelay(splay: u64, unixNanos: i64, interval: i64): (d: Option<nat>)
    ensures d.None? <==> TickModulus(interval) == 0
    ensures d.Some? ==> d.value < TickModulus(interval)
    ensures d.Some? ==>
              var tick := U64(unixNanos) + d.value * NanosPerMilli;
              (tick / NanosPerMilli) % TickModulus(interval) == splay % TickModulus(interval)
  {
    var m := TickModulus(interval);
    if m == 0 then None
    else
      var nowMillis := U64(unixNanos) / NanosPerMilli;
      var d := (splay - nowMillis) % m;
      SplayDelayPhase(splay, U64(unixNanos), m, d);
      Some(d)
  }

  lemma SplayDelayPhase(splay: nat, nowNanos: nat, m: nat, d: nat)
    requires m > 0 && d == (splay - nowNanos / NanosPerMilli) % m
    ensures ((nowNanos + d * NanosPerMilli) / NanosPerMilli) % m == splay % m
  {
    var ms := nowNanos / NanosPerMilli;
    assert nowNanos + d * NanosPerMilli == NanosPerMilli * (ms + d) + nowNanos % NanosPerMilli;
    DivModUnique(nowNanos + d * NanosPerMilli, NanosPerMilli, ms + d, nowNanos % NanosPerMilli);
    var q := (splay - ms) / m;
    assert splay - ms == m * q + d;
    assert ms + d == splay + m * -q;
    ModAddMultiple(splay, m, -q);
  }

  /** With the units matched, two clock readings give first ticks on the same phase of the interval. */
  lemma SplayDelayFixesPhase(splay: u64, t1: i64, t2: i64, interval: i64)
    requires TickModulus(interval) != 0
    ensures var m := TickModulus(interval);
            ((U64(t1) + SplayDelay(splay, t1, interval).value * NanosPerMilli) / NanosPerMilli) % m
              == ((U64(t2) + SplayDelay(splay, t2, interval).value * NanosPerMilli) / NanosPerMilli) % m
  {
  }

  /**
    For every interval from one second up to `MaxPeriodSeconds`, the first
    timer is non-negative and shorter than one period, and the period is the
    interval in nanoseconds: no Go conversion wraps.
   */
  lemma FirstTickWithinPeriod(splay: u64, unixNanos: i64, interval: i64)
    requires 0 < interval <= MaxPeriodSeconds
    ensures TickModulus(interval) == interval * MillisPerSecond
    ensures PeriodNanos(interval) == interval * NanosPerSecond
    ensures FirstDelay(splay, unixNanos, interval).Some?
    ensures 0 <= FirstTimerNanos(FirstDelay(splay, unixNanos, interval).value) < PeriodNanos(interval)
  {
    var d := FirstDelay(splay, unixNanos, interval).value;
    assert d < interval * MillisPerSecond;
    assert d * NanosPerMilli < interval * NanosPerSecond;
  }

  lemma {:induction false} OddFactor(k: nat, u: nat)
    requires (125 * u) % Pow2(k) == 0
    ensures u % Pow2(k) == 0
  {
    if k > 0 {
      var p := Pow2(k - 1);
      assert Pow2(k) == 2 * p;
      var c := 125 * u / (2 * p);
      assert 125 * u == p * (2 * c);
      ModAddMultiple(0, p, 2 * c);
      OddFactor(k - 1, u);
      var a := u / p;
      assert u == p * a;
      assert p * (125 * a) == p * (2 * c);
      assert 125 * a == 2 * c;
      var b := c - 62 * a;
      assert a == 2 * b;
      assert u == (2 * p) * b;
      ModAddMultiple(0, 2 * p, b);
    }
  }

  /**
    The modulus is zero, and the scheduler's goroutine would divide by zero,
    exactly for the intervals that are multiples of 2^61: zero, but also
    2^61, 2^62 and 3 * 2^61 seconds and their negatives.
   */
  lemma ZeroModulus(interval: i64)
    ensures TickModulus(interval) == 0 <==> interval % Pow2(61) == 0
  {
    Pow2Constants();
    var u := U64(interval);
    var p := Pow2(61);
    assert TWO_64 == p * 8;
    assert u == interval + TWO_64 * (if interval < 0 then 1 else 0);
    ModAddMultiple(interval, p, 8 * (if interval < 0 then 1 else 0));
    assert u % p == interval % p;
    if TickModulus(interval) == 0 {
      var c := u * 1000 / TWO_64;
      assert u * 1000 == TWO_64 * c;
      assert 125 * u == p * c;
      ModAddMultiple(0, p, c);
      OddFactor(61, u);
    } else {
      if u % p == 0 {
        var a := u / p;
        assert u * 1000 == TWO_64 * (125 * a);
        ModAddMultiple(0, TWO_64, 125 * a);
        assert false;
      }
    }
  }

  /** Zero and 2^61 seconds are both intervals whose first tick the scheduler cannot compute. */
  lemma ZeroModulusExamples()
    ensures TickModulus(0) == 0
    ensures TickModulus(0x2000_0000_0000_0000) == 0
    ensures TickModulus(1) == 1000
  {
    ZeroModulus(0x2000_0000_0000_0000);
    Pow2Constants();
  }
}

=== FILE: varint.dfy ===
/**
  Unsigned base-128 varints as Go's `encoding/binary` reads and writes them
  (the "Base 128 Varints" of the Protocol Buffers encoding): little-endian
  groups of seven bits, the high bit of each byte set when another byte
  follows.

  `Uvarint` follows `binary.Uvarint`: it returns the value and the number of
  bytes read (n > 0), n == 0 when the buffer ends before a terminating byte,
  and n < 0 (minus the bytes read) when the value would overflow 64 bits.
 */
module Varint {
  import opened GoInts

  const MaxVarintLen64: nat := 10

  /** The pair `(value, n)` that `binary.Uvarint` returns. */
  datatype Decoded = Decoded(value: u64, n: int)

  /** The continuation bit: another byte of the same value follows. */
  predicate Continues(b: byte) {
    b >= 0x80
  }

  /** The seven-bit group a byte carries. */
  function Group(b: byte): (g: nat)
    ensures g < 0x80
    ensures Continues(b) ==> b == g + 0x80
    ensures !Continues(b) ==> b == g
  {
    if Continues(b) then b - 0x80 else b
  }

  /**
    One more group in front of the groups read after it: the bound by the
    weight of the last group read carries over, and the value fits 64 bits
    (when the last group is the tenth byte it is at most one bit).
   */
  lemma GroupInFront(i: nat, n: nat, g: nat, w: nat)
    requires i < n <= MaxVarintLen64 && i + 1 < n
    requires g < 0x80
    requires w < Pow2(7 * (n - i - 1))
    requires n == MaxVarintLen64 ==> w < 2 * Pow2(7 * (MaxVarintLen64 - 2 - i))
    ensures g + 0x80 * w < Pow2(7 * (n - i))
    ensures n == MaxVarintLen64 ==> g + 0x80 * w < 2 * Pow2(7 * (MaxVarintLen64 - 1 - i))
    ensures g + 0x80 * w < TWO_64
  {
    Pow2Step(7 * (n - i - 1));
    assert 7 * (n - i - 1) + 7 == 7 * (n - i);
    Pow2Constants();
    if n == MaxVarintLen64 {
      Pow2Step(7 * (MaxVarintLen64 - 2 - i));
      assert 7 * (MaxVarintLen64 - 2 - i) + 7 == 7 * (MaxVarintLen64 - 1 - i);
      Pow2Monotone(7 * (MaxVarintLen64 - 1 - i), 63);
    } else {
      Pow2Monotone(7 * (n - i), 63);
    }
  }

  /** A terminating byte is a group on its own: below one group's weight, and at most one bit at index 9. */
  lemma LastGroup(i: nat, b: nat)
    requires i < MaxVarintLen64 && b < 0x80
    requires i == MaxVarintLen64 - 1 ==> b <= 1
    ensures b < Pow2(7 * (i + 1 - i))
    ensures i + 1 == MaxVarintLen64 ==> b < 2 * Pow2(7 * (MaxVarintLen64 - 1 - i))
  {
    assert Pow2(7) == 0x80;
    assert Pow2(0) == 1;
  }

  /**
    The loop of `binary.Uvarint` from byte index `i` on: the value of the
    groups at `i` and after, and Go's byte count. Go accumulates the groups
    from the first one up by shifting; this sums them from the last one down
    (`group + 0x80 * rest`), which is the same number, because the only shift
    Go truncates (a continuation byte at index 9) never reaches a returned
    value.
   */
  function Scan(buf: seq<byte>, i: nat): (r: Decoded)
    requires i <= |buf| && i <= MaxVarintLen64
    ensures r.n > 0 ==>
              && i < r.n <= |buf| && r.n <= MaxVarintLen64
              && r.value < Pow2(7 * (r.n - i))
              && (r.n == MaxVarintLen64 ==> r.value < 2 * Pow2(7 * (MaxVarintLen64 - 1 - i)))
    ensures r.n < 0 ==> MaxVarintLen64 <= -r.n <= |buf|
    ensures r.n <= 0 ==> r.value == 0
    decreases |buf| - i
  {
    if i == |buf| then Decoded(0, 0)
    else if i == MaxVarintLen64 then Decoded(0, -(i + 1))
    else if !Continues(buf[i]) then
      if i == MaxVarintLen64 - 1 && buf[i] > 1 then Decoded(0, -(i + 1))
      else
        LastGroup(i, buf[i]);
        Decoded(buf[i], i + 1)
    else
      var rest := Scan(buf, i + 1);
      if rest.n <= 0 then Decoded(0, rest.n)
      else
        GroupInFront(i, rest.n, Group(buf[i]), rest.value);
        Decoded(Group(buf[i]) + 0x80 * rest.value, rest.n)
  }

  /** A positive count ends on the first byte without the continuation bit. */
  lemma {:induction false} ScanStopsAtTerminal(buf: seq<byte>, i: nat)
    requires i <= |buf| && i <= MaxVarintLen64
    requires Scan(buf, i).n > 0
    ensures !Continues(buf[Scan(buf, i).n - 1])
    ensures forall j :: i <= j < Scan(buf, i).n - 1 ==> Continues(buf[j])
    decreases |buf| - i
  {
    if Continues(buf[i]) {
      var n := Scan(buf, i + 1).n;
      ScanStopsAtTerminal(buf, i + 1);
      forall j | i <= j < n - 1
        ensures Continues(buf[j])
      {
        if j > i {
          assert i + 1 <= j < Scan(buf, i + 1).n - 1;
        }
      }
    }
  }

  /** A zero count means the buffer ran out, within ten bytes, with every byte continuing. */
  lemma {:induction false} ScanRunsOut(buf: seq<byte>, i: nat)
    requires i <= |buf| && i <= MaxVarintLen64
    ensures Scan(buf, i).n == 0 <==> |buf| <= MaxVarintLen64 && forall j :: i <= j < |buf| ==> Continues(buf[j])
    decreases |buf| - i
  {
    if i < |buf| && i < MaxVarintLen64 && Continues(buf[i]) {
      ScanRunsOut(buf, i + 1);
      if |buf| <= MaxVarintLen64 && forall j :: i + 1 <= j < |buf| ==> Continues(buf[j]) {
        forall j | i <= j < |buf|
          ensures Continues(buf[j])
        {
          if j > i {
            assert i + 1 <= j < |buf|;
          }
        }
      }
    }
  }

  /** A negative count means every byte before the last one read carried the continuation bit. */
  lemma {:induction false} ScanOverflows(buf: seq<byte>, i: nat)
    requires i <= |buf| && i <= MaxVarintLen64
    requires Scan(buf, i).n < 0
    ensures forall j :: i <= j < -Scan(buf, i).n - 1 ==> Continues(buf[j])
    decreases |buf| - i
  {
    if i < |buf| && i < MaxVarintLen64 && Continues(buf[i]) {
      var n := Scan(buf, i + 1).n;
      ScanOverflows(buf, i + 1);
      forall j | i <= j < -n - 1
        ensures Continues(buf[j])
      {
        if j > i {
          assert i + 1 <= j < -Scan(buf, i + 1).n - 1;
        }
      }
    }
  }

  /** `binary.Uvarint(buf)`: the value and the byte count (see the module comment). */
  function Uvarint(buf: seq<byte>): (r: Decoded)
    ensures -|buf| <= r.n <= |buf|
    ensures r.n > 0 ==> r.value < Pow2(7 * r.n)
  {
    Scan(buf, 0)
  }

  /** `binary.PutUvarint`: the canonical encoding of `v`, least significant group first. */
  function PutUvarint(v: nat): (e: seq<byte>)
    ensures |e| >= 1
    ensures !Continues(e[|e| - 1])
    ensures forall j :: 0 <= j < |e| - 1 ==> Continues(e[j])
    decreases v
  {
    if v < 0x80 then [v] else [v % 0x80 + 0x80] + PutUvarint(v / 0x80)
  }

  /** A value below twice the weight of the `k`-th group encodes in at most `k` bytes. */
  lemma {:induction false} PutUvarintLength(v: nat, k: nat)
    requires k >= 1 && v < 2 * Pow2(7 * (k - 1))
    ensures |PutUvarint(v)| <= k
    decreases k
  {
    var e := PutUvarint(v);
    if k == 1 {
      assert Pow2(0) == 1;
    } else if v >= 0x80 {
      Pow2Step(7 * (k - 2));
      assert 7 * (k - 2) + 7 == 7 * (k - 1);
      PutUvarintLength(v / 0x80, k - 1);
      EncodingCons(v);
    }
  }

  /** A 64-bit value encodes in at most ten bytes. */
  lemma PutUvarintFits(v: u64)
    ensures |PutUvarint(v)| <= MaxVarintLen64
  {
    Pow2Constants();
    assert 7 * (MaxVarintLen64 - 1) == 63;
    PutUvarintLength(v, MaxVarintLen64);
  }

  lemma SliceTail(buf: seq<byte>, i: nat, e: seq<byte>, t: seq<byte>)
    requires |e| >= 1 && i + |e| <= |buf| && buf[i..i + |e|] == e
    requires t == e[1..]
    ensures buf[i + 1..i + 1 + |t|] == t
    ensures buf[i] == e[0]
  {
    assert buf[i + 1..i + 1 + |t|] == buf[i..i + |e|][1..];
  }

  /** A continuation byte in front of a terminated rest adds its group below the rest's value. */
  lemma ScanCons(buf: seq<byte>, i: nat, v: nat)
    requires i < |buf| && i < MaxVarintLen64 && Continues(buf[i]) && Group(buf[i]) == v % 0x80
    requires Scan(buf, i + 1).n > 0 && Scan(buf, i + 1).value == v / 0x80
    ensures Scan(buf, i).value == v
    ensures Scan(buf, i).n == Scan(buf, i + 1).n
  {
    assert Scan(buf, i).value == v % 0x80 + 0x80 * (v / 0x80);
  }

  /** The encoding of more than one group: a continuing byte with the low group, then the encoding of the rest. */
  lemma EncodingCons(v: nat)
    requires v >= 0x80
    ensures PutUvarint(v) == [v % 0x80 + 0x80] + PutUvarint(v / 0x80)
    ensures |PutUvarint(v)| == |PutUvarint(v / 0x80)| + 1
  {
  }

  /** An encoding of more than one byte sits at `i`: its first byte continues and its tail sits at `i + 1`. */
  lemma EncodingTail(buf: seq<byte>, i: nat, v: nat)
    requires v >= 0x80
    requires i + |PutUvarint(v)| <= |buf| && buf[i..i + |PutUvarint(v)|] == PutUvarint(v)
    ensures Continues(buf[i]) && Group(buf[i]) == v % 0x80
    ensures buf[i + 1..i + 1 + |PutUvarint(v / 0x80)|] == PutUvarint(v / 0x80)
  {
    var e := PutUvarint(v);
    var t := PutUvarint(v / 0x80);
    EncodingCons(v);
    SliceTail(buf, i, e, t);
  }

  /** The bound that keeps a tenth group to one bit carries over from a value to its groups after the first. */
  lemma TenthBoundTail(i: nat, v: nat)
    requires i + 1 < MaxVarintLen64
    requires v < 2 * Pow2(7 * (MaxVarintLen64 - 1 - i))
    ensures v / 0x80 < 2 * Pow2(7 * (MaxVarintLen64 - 1 - (i + 1)))
  {
    Pow2Step(7 * (MaxVarintLen64 - 2 - i));
    assert 7 * (MaxVarintLen64 - 2 - i) + 7 == 7 * (MaxVarintLen64 - 1 - i);
  }

  /** Scanning an encoding that sits at index `i` decodes its value and stops right after it. */
  lemma {:induction false} ScanEncoded(buf: seq<byte>, i: nat, v: nat)
    requires i + |PutUvarint(v)| <= |buf| && buf[i..i + |PutUvarint(v)|] == PutUvarint(v)
    requires i + |PutUvarint(v)| <= MaxVarintLen64
    requires i + |PutUvarint(v)| == MaxVarintLen64 ==> v < 2 * Pow2(7 * (MaxVarintLen64 - 1 - i))
    ensures Scan(buf, i).value == v
    ensures Scan(buf, i).n == i + |PutUvarint(v)|
    decreases v
  {
    if v < 0x80 {
      assert buf[i] == PutUvarint(v)[0];
      if i + 1 == MaxVarintLen64 {
        assert Pow2(0) == 1;
      }
    } else {
      EncodingCons(v);
      if i + |PutUvarint(v)| == MaxVarintLen64 {
        TenthBoundTail(i, v);
      }
      EncodingTail(buf, i, v);
      ScanEncoded(buf, i + 1, v / 0x80);
      ScanCons(buf, i, v);
    }
  }

  /**
    Decoding the encoding of any 64-bit value, followed by anything, gives the
    value back and consumes exactly the encoding.
   */
  lemma UvarintPutUvarint(v: u64, rest: seq<byte>)
    ensures Uvarint(PutUvarint(v) + rest) == Decoded(v, |PutUvarint(v)|)
  {
    var e := PutUvarint(v);
    PutUvarintFits(v);
    Pow2Constants();
    assert 7 * (MaxVarintLen64 - 1 - 0) == 63;
    assert (e + rest)[0..|e|] == e;
    ScanEncoded(e + rest, 0, v);
  }

  /**
    Seven bytes (the splay input) always decode without overflow: n is never
    negative, the value is below 2^49, and n == 0 (value 0) exactly when all
    seven bytes carry the continuation bit.
   */
  lemma SevenBytes(buf: seq<byte>)
    requires |buf| == 7
    ensures Uvarint(buf).n >= 0
    ensures Uvarint(buf).value < Pow2(49)
    ensures Uvarint(buf).n == 0 <==> forall j :: 0 <= j < 7 ==> Continues(buf[j])
    ensures Uvarint(buf).n == 0 ==> Uvarint(buf).value == 0
  {
    var r := Uvarint(buf);
    ScanRunsOut(buf, 0);
    if r.n > 0 {
      Pow2Monotone(7 * r.n, 49);
    }
  }
}
